=== FILE: README.md ===
# Motojojo membership and ticketing — a Dafny model

This project models the decision logic of the Motojojo membership and
ticketing app. The original is TypeScript: Supabase edge functions, a
browser service layer and React pages. The model is functional.

- **Tables.** Every table (`membership_plans`, `user_memberships`, `users`,
  `tickets`) is a sequence of immutable rows.
- **Time.** Every `Date` is an integer count of milliseconds since the epoch.
- **Outside world.** A remote call becomes a parameter that says how it
  came out: an insert's reply, an invoke's error, the payment gateway's
  answer, a query that failed. `Date.now()` and `Math.random()` become
  parameters too. The HMAC-SHA256 of the payment signature is a
  function-typed parameter `hmac(secret, message)`.

Modules, following the program's structure:

- `Wrappers`: `Option`, `Result`, the row filter of a `.eq(...)` query, and
  the `.single()` / `.maybeSingle()` outcome.
- `Text`: decimal rendering of numbers, reading digits back, and
  ECMAScript `trim`.
- `Time`: the ceiling day count `Math.ceil((end - now) / 86400000)` used in
  five places.
- `Records`: plan, membership and user rows; the status enumeration;
  plan lookup; the active-row filter; the bulk status update.
- `VerifyPayment`: the `verify-membership-payment` edge function.
  It gates on the signature, checks the plan, computes the start and end
  dates, inserts the new row and expires the previous active row.
- `CreatePayment`: the `create-membership-payment` edge function.
  It validates the request in order, converts rupees to paise, builds the
  receipt and maps gateway errors.
- `ExpirySweep`: the scheduled `check-membership-expiry` function.
  It finds the reminder window and the past-due rows, sends reminders on
  day 3 exactly, and flips past-due rows to `expired`.
- `MembershipService`: `getMembershipPlans`, `getUserMembership`,
  `saveUserMembershipDetails`, and the invoke wrappers.
- `MembershipStatus`: the `useMembership` hook and `CurrentPlanCard`.
- `ClientRenewal`: what the pricing and profile pages share. That is the
  latest membership they load and the row they insert from the browser.
- `PricingPage` and `ProfilePage`: the page logic.
- `Tickets`: booking, ticket and event rows; ticket numbers, QR links and
  holder names.
- `BookingService`: `createBookingFromCart`, `generateTicketsForBooking`,
  `resendTicketEmail`, `markTicketsAsAttended` and the direct path of
  `processCompletedEvents`.

Behaviours worth knowing before reading the contracts:

- `.single()` and `.maybeSingle()` yield a row only when exactly one row
  matches. With several matches the query reports an error or `null`.
  - So `getUserMembership` and the payment function's lookup of the
    current active row find nothing when a user holds two active rows.
  - The payment function's lookup has no ordering at all, and its error is
    never read: a failed lookup looks like no current row.
  - `getUserMembership` orders newest-first but takes `.maybeSingle()`
    without a limit, so the ordering never picks a row.
- The pricing and profile pages load the membership with a different
  query. It has no status filter, orders newest-first and adds `.limit(1)`.
  So the pages show the user's newest row of any status, and there the
  ordering does decide.
- Neither client path (subscribe on the pricing page, renew on the
  profile page) expires the row it extends. Only the payment function
  does. The model therefore states what each path does, and does not
  claim that a user has at most one active row.

## Model

| member | source | states |
|---|---|---|
| Wrappers.Filter | src/services/membershipService.ts:46-47 | An `.eq` filter keeps exactly the rows satisfying the predicate, each as often as it occurred, and drops every other row. |
| Wrappers.FilterConcat | src/services/membershipService.ts:46-47 | Filtering keeps the rows' order: filtering two tables one after the other is filtering their concatenation. |
| Wrappers.FilterSingleHit | src/services/membershipService.ts:46-49 | When only one row satisfies the predicate, the filter yields exactly that row. |
| Wrappers.FilterKeepsDistinctKeys | src/services/bookingService.ts:517-521 | Filtering rows whose keys are distinct leaves rows whose keys are distinct. |
| Wrappers.ExactlyOne | src/services/membershipService.ts:49 | `.maybeSingle()` yields a row exactly when one row matched, and that row is one of the matches. |
| Text.NatToString | src/services/bookingService.ts:154 | `${n}` for a natural number is a non-empty string of decimal digits. |
| Text.IntToString | supabase/functions/create-membership-payment/index.ts:52 | `${n}` for an integer is non-empty, all digits when non-negative, and '-' followed by digits when negative. |
| Text.ParseNatToString | src/services/bookingService.ts:154 | Reading the digits of `${n}` back gives `n`. The decimal rendering loses nothing. |
| Text.NatToStringInjective | src/services/bookingService.ts:154 | Distinct numbers render as distinct strings. |
| Text.TrimStartIsSuffix | src/services/bookingService.ts:145-146 | Trimming the start removes exactly the longest white-space prefix and leaves the rest as a suffix. |
| Text.TrimEndIsPrefix | src/services/bookingService.ts:145-146 | Trimming the end removes exactly the longest white-space suffix and leaves the rest as a prefix. |
| Text.TrimEmptyIffBlank | src/services/bookingService.ts:145 | `s.trim()` is falsy exactly when `s` is all ECMAScript white space. Both directions are stated. |
| Text.TrimKeepsUnpadded | src/services/bookingService.ts:146 | A name without white space at either end is its own trim. |
| Text.TrimHasNoOuterSpace | src/services/bookingService.ts:146 | A trimmed name neither starts nor ends with white space. |
| Time.CeilDiv | src/hooks/use-membership.ts:11-13 | `Math.ceil(a / b)` is the integer `q` with `(q-1)*b < a <= q*b`, which also holds for negative `a`. |
| Time.CeilDivUnique | src/hooks/use-membership.ts:11-13 | Those bounds determine the ceiling: no other integer satisfies them. |
| Time.DaysRemaining | src/hooks/use-membership.ts:26-30 | A row without an end date has no day count. Otherwise the count is the ceiling of the remaining time in days. |
| Time.DaysPositiveIffAhead | src/hooks/use-membership.ts:76 | The day count is positive exactly when the end is still ahead of now. |
| Time.DaysAtMostIff | src/hooks/use-membership.ts:77 | The day count is at most `k` exactly when the end is at most `k` whole days ahead. |
| Time.DaysEqualIff | supabase/functions/check-membership-expiry/index.ts:57-59 | The day count is `k` exactly when the end lies in `(now + (k-1) days, now + k days]`. |
| Records.ParseStatus | src/services/membershipService.ts:16 | A status column value parses only to the status stored under that very name. |
| Records.StatusRoundTrip | src/services/membershipService.ts:16 | Each of pending, active and expired reads back as itself, so status is always one of the three. |
| Records.PlanById | supabase/functions/verify-membership-payment/index.ts:36-40 | A plan is found exactly when one row carries the id, and it is a row of the table with that id. No row with the id means no plan. |
| Records.PlanByIdFindsRow | supabase/functions/verify-membership-payment/index.ts:36-40 | A row whose id no other row shares is always found by its id. |
| Records.ActiveRowsOf | src/services/membershipService.ts:46-47 | The rows kept are exactly the user's rows whose status is active. |
| Records.ExpireIds | supabase/functions/verify-membership-payment/index.ts:81-87 | The bulk update keeps every row in place and changes only the status of rows with a listed id, to expired. |
| VerifyPayment.SignedText | supabase/functions/verify-membership-payment/index.ts:26-29 | The signed message is the order id, then '\|', then the payment id. Both parts can be read back. |
| VerifyPayment.CurrentActive | supabase/functions/verify-membership-payment/index.ts:47-52 | The lookup finds a row exactly when the user has one active row, and that row is an active row of the user. |
| VerifyPayment.PaidStart | supabase/functions/verify-membership-payment/index.ts:47-59 | A paid term starts at the current active row's end when that end is strictly later than now, and at now otherwise. It never starts in the past. |
| VerifyPayment.PaidEnd | supabase/functions/verify-membership-payment/index.ts:61-62 | A paid term lasts exactly the plan's number of 24-hour days. |
| VerifyPayment.VerifyMembershipPayment | supabase/functions/verify-membership-payment/index.ts:26-117 | The whole call is covered. A bad signature gives 'Invalid payment signature' and leaves the store alone. A missing plan gives 'Plan not found'. A failed insert errors and expires nothing. A failed lookup of the current row counts as no row. Success holds exactly when the signature, the plan and the insert are all good. The new active row carries the plan, the price, the payment id and the reply's start and end. The previous active row becomes expired and every other row is untouched. |
| VerifyPayment.InvalidSignatureIffMismatch | supabase/functions/verify-membership-payment/index.ts:26-33 | The signature error comes back if and only if the HMAC of `orderId\|paymentId` differs from the supplied signature. |
| VerifyPayment.MismatchIgnoresStore | supabase/functions/verify-membership-payment/index.ts:31-36 | On a bad signature the outcome does not depend on plans, clock, insert reply or new id: nothing is read or written. |
| VerifyPayment.LookupFailureStartsNow | supabase/functions/verify-membership-payment/index.ts:47-59 | When the lookup of the current row fails, a valid payment still succeeds, starts now and leaves every existing row as it was. |
| VerifyPayment.RenewalStacksOntoCurrentTerm | supabase/functions/verify-membership-payment/index.ts:54-59 | A purchase made before the current term ends starts when that term ends. One made after it ended starts now. |
| CreatePayment.UserById | supabase/functions/create-membership-payment/index.ts:35-39 | A user is found exactly when one row carries the id, and it is a row of the table with that id. No row with the id means no user. |
| CreatePayment.UserByIdFindsRow | supabase/functions/create-membership-payment/index.ts:35-39 | A row whose id no other row shares is always found by its id. |
| CreatePayment.Paise | supabase/functions/create-membership-payment/index.ts:50 | The order amount is a whole number of rupees expressed in paise: divisible by 100, and the quotient is the price. |
| CreatePayment.Receipt | supabase/functions/create-membership-payment/index.ts:52 | The receipt is 'membership_', the plan id, '_', the user id, '_' and the clock reading, each at a known position. |
| CreatePayment.ReceiptsDistinguishInstants | supabase/functions/create-membership-payment/index.ts:52 | Receipts for the same plan and user made at different instants differ. |
| CreatePayment.GatewayError | supabase/functions/create-membership-payment/index.ts:71-73 | The error is 'Razorpay error: ' followed by the gateway's description, or by 'Unknown error' when there is none. |
| CreatePayment.Respond | supabase/functions/create-membership-payment/index.ts:75-106 | Success answers 200 with `success: true`. Any failure answers 400 with `success: false`. |
| CreatePayment.CreateMembershipPayment | supabase/functions/create-membership-payment/index.ts:24-106 | The plan is checked before the user. No order is sent unless both exist. The order asks for the price in paise, in INR, with the receipt above. A gateway refusal maps to the gateway error. Success holds exactly when the order was sent and accepted, and it echoes the gateway's order with the user's name, email and phone. |
| ExpirySweep.ReminderCandidates | supabase/functions/check-membership-expiry/index.ts:21-34 | The reminder query keeps exactly the active rows whose end lies in `[now, now + 3 days]`. |
| ExpirySweep.ExpiredCandidates | supabase/functions/check-membership-expiry/index.ts:40-53 | The expired query keeps exactly the active rows whose end is before now. |
| ExpirySweep.CandidatesDisjoint | supabase/functions/check-membership-expiry/index.ts:32-49 | No row is both a reminder candidate and an expired candidate. |
| ExpirySweep.ReminderNotices | supabase/functions/check-membership-expiry/index.ts:56-71 | Each reminder is about a window row whose ceiling day count is exactly 3. The reminders are exactly one per such row, in query order, each reporting 3 days. |
| ExpirySweep.RemindedIffThirdDay | supabase/functions/check-membership-expiry/index.ts:57-59 | A window row is reminded exactly when its end is more than two and at most three days ahead. Rows with 0 to 2 days left get nothing. |
| ExpirySweep.ExpiryNotices | supabase/functions/check-membership-expiry/index.ts:73-91 | Every expired candidate gets exactly one 'expired' email, in query order. |
| ExpirySweep.IdsOf | supabase/functions/check-membership-expiry/index.ts:76-79 | The ids the flips target are exactly the candidates' ids. |
| ExpirySweep.SweepNotices | supabase/functions/check-membership-expiry/index.ts:56-91 | One run sends the reminders first, then one expiry email per expired candidate. |
| ExpirySweep.SweepStore | supabase/functions/check-membership-expiry/index.ts:73-91 | After the run every past-due active row is expired, and no row changes in any other way. |
| ExpirySweep.Sweep | supabase/functions/check-membership-expiry/index.ts:21-116 | A failing query answers an error and changes nothing. Otherwise the store and emails are as above, and the counts reported are the sizes of the two candidate sets, not the number of emails. |
| ExpirySweep.SweepKeepsCurrentRows | supabase/functions/check-membership-expiry/index.ts:74-79 | A row whose end has not passed keeps its status, given that ids are unique. |
| ExpirySweep.SweepIdempotent | supabase/functions/check-membership-expiry/index.ts:48-49 | Running the sweep again at the same instant finds nothing to expire and changes nothing. |
| ExpirySweep.NothingPastDueAfterSweep | supabase/functions/check-membership-expiry/index.ts:48-49 | With no past-due active row there is no expired candidate and the store is unchanged. |
| MembershipService.InsertByKey | src/services/membershipService.ts:29 | Inserting a plan into a list sorted by a key keeps it sorted and adds exactly that plan. |
| MembershipService.SortByKey | src/services/membershipService.ts:29 | `.order(column, ascending)` gives the same plans, each as often as before, ascending by the key. |
| MembershipService.GetMembershipPlans | src/services/membershipService.ts:24-37 | On error the list is empty. Otherwise it is a permutation of exactly the active plans, cheapest first. |
| MembershipService.GetUserMembership | src/services/membershipService.ts:39-60 | A membership comes back exactly when the query succeeded with exactly one active row of the user. It is that row, with its plan embedded. |
| MembershipService.SaveUserMembershipDetails | src/services/membershipService.ts:114-143 | It always returns true, even when the update fails. It writes only when name, phone or city is truthy. It never touches email or id, or another user's row. On a write, a field given as undefined keeps its stored value. |
| MembershipService.UnwrapInvoke | src/services/membershipService.ts:83-111 | An invoke error becomes a thrown error with the same message. Otherwise the data is handed back as is. |
| MembershipStatus.UseMembership | src/hooks/use-membership.ts:15-45 | Without a user the hook holds no membership, no day count and is not loading. With a user it holds what was fetched, plus a day count exactly when there is an end date. |
| MembershipStatus.HookFlagsByTimestamps | src/hooks/use-membership.ts:76-78 | The hook's flags on the loaded row. Active means an active row whose end is absent or still ahead. Expired means the end is not after now. Expiring soon means the end is after now and at most 7 days ahead. |
| MembershipStatus.ClassificationPartition | src/hooks/use-membership.ts:77-78 | Expired and expiring soon never hold together. Without a day count neither holds. With one, the membership is expired, expiring soon or more than 7 days out. |
| MembershipStatus.ActiveIsNotExpired | src/hooks/use-membership.ts:76-78 | An active membership is never shown as expired. |
| MembershipStatus.ClassificationByTimestamps | src/components/membership/CurrentPlanCard.tsx:16-21 | Expired means the end is not after now. Expiring soon means the end is after now and at most 7 days ahead. |
| MembershipStatus.SweptRowsShowExpired | supabase/functions/check-membership-expiry/index.ts:40-53 | A row the sweep expires already shows as expired on the card, and so does a row ending exactly now. |
| MembershipStatus.RemainingText | src/components/membership/CurrentPlanCard.tsx:90-92 | The text is 'Expired' exactly for counts up to 0, '1 day remaining' for 1, and 'N days remaining' above that. |
| MembershipStatus.RemainingTextReadsBack | src/components/membership/CurrentPlanCard.tsx:90-92 | The count can be read back from the text's leading digits. |
| MembershipStatus.ButtonLabel | src/components/membership/CurrentPlanCard.tsx:112 | The label is 'Reactivate Plan' exactly when expired, and 'Renew Plan' otherwise. |
| MembershipStatus.CurrentPlanCard | src/components/membership/CurrentPlanCard.tsx:14-112 | Nothing renders without a membership. The card's count is the ceiling day count, its two flags never clash, and the remaining line appears exactly when there is a count, as the remaining-days text of that count. The renew button appears exactly with a user id and a plan, labelled 'Reactivate Plan' when expired and 'Renew Plan' otherwise. |
| ClientRenewal.Newest | src/pages/PricingPage.tsx:96-98 | The newest row by creation time, taken from the rows and absent only when there are none. |
| ClientRenewal.LatestMembership | src/pages/PricingPage.tsx:90-100 | The page's membership is the user's newest row of any status, and is absent exactly when the user has none. |
| ClientRenewal.ClientStart | src/pages/PricingPage.tsx:111-113 | The browser's start is the loaded end when it is strictly after now, and now otherwise. |
| ClientRenewal.InsertClientRow | src/pages/Profile.tsx:232-243 | A failed insert reports its message and stores nothing. A successful one appends an active row for the plan with the start above and no end date. |
| ClientRenewal.ClientPathsKeepExistingRows | src/pages/Profile.tsx:235-237 | The browser paths never expire or change an existing row. |
| ClientRenewal.BrowserAndServerStartsAgree | src/pages/PricingPage.tsx:111-113 | The browser's start rule agrees with the payment function's on any row after the epoch. |
| PricingPage.ListPlans | src/pages/PricingPage.tsx:68-88 | On error the page shows the three fallback plans. Otherwise it shows the active plans, shortest first. The first listed plan is preselected. |
| PricingPage.FallbackListing | src/pages/PricingPage.tsx:74-82 | The fallback is 30, 90 and 365 days at 500, 899 and 1899 rupees, with the monthly plan selected. |
| PricingPage.CurrentPlanByTimestamps | src/pages/PricingPage.tsx:145 | A plan is the current one exactly when the loaded membership embeds it and its end is still ahead of now. |
| PricingPage.CtaLabel | src/pages/PricingPage.tsx:145-146 | The button reads 'Subscribe' exactly when the plan is not the current one. Otherwise it reads 'Renew (starts after ', the day count, then ' day)' when the count is 1 and ' days)' when it is not. It never reads a bare 'Renew'. |
| PricingPage.HandleSubscribe | src/pages/PricingPage.tsx:106-127 | It goes to /auth, inserting nothing, exactly when no user is signed in. Otherwise the insert is always attempted. A written insert appends an active row for the chosen plan, starting after the latest term, with no end date. A failed one reports its message and stores nothing. |
| PricingPage.SubscribeStartRule | src/pages/PricingPage.tsx:111-117 | A subscription taken during the current term starts at its end. One taken after it starts now. |
| ProfilePage.DefaultTab | src/pages/Profile.tsx:47 | The tab is 'bookings' exactly when the query parameter says so, and 'profile' otherwise. |
| ProfilePage.Without | src/pages/Profile.tsx:177 | Filtering removes every occurrence of the id and keeps every other id as often as it occurred. |
| ProfilePage.WithoutConcat | src/pages/Profile.tsx:177 | Filtering keeps the order: filtering two lists one after the other is filtering their concatenation. |
| ProfilePage.ToggleInterest | src/pages/Profile.tsx:170-185 | A chosen category is removed entirely and an unchosen one is appended at the end. Every other category is unaffected. |
| ProfilePage.WithoutAppended | src/pages/Profile.tsx:177-182 | Filtering out an id just appended to a list without it gives the list back. |
| ProfilePage.ToggleTwiceRestores | src/pages/Profile.tsx:170-185 | Toggling an unchosen category twice restores the original list. |
| ProfilePage.ToggleTwiceMovesToEnd | src/pages/Profile.tsx:170-185 | Toggling a chosen category twice moves it, once, to the end and keeps the others in order. |
| ProfilePage.HandleRenew | src/pages/Profile.tsx:228-249 | With no plan id or no user it goes to /pricing and inserts nothing. Otherwise the insert is always attempted. A written insert appends an active row for the same plan, starting after the loaded term, with no end date. A failed one reports its message and stores nothing. |
| Tickets.SeatCount | src/services/bookingService.ts:142 | The seat loop runs once per ticket, and not at all for a non-positive count. |
| Tickets.TicketNumber | src/services/bookingService.ts:154 | A ticket number is 'MJ-', the clock reading, '-' and the draw, each at a known position. |
| Tickets.TicketNumberInjective | src/services/bookingService.ts:154 | Two numbers are equal only if they were drawn in the same millisecond with the same random value. |
| Tickets.QrUrl | src/services/bookingService.ts:155 | The QR link is the fixed prefix followed by the ticket number, and the number can be read back from it. |
| Tickets.QrData | src/services/bookingService.ts:155 | A link yields a number only when it is the prefix followed by that number. |
| Tickets.QrUrlInjective | src/services/bookingService.ts:155 | Distinct ticket numbers give distinct QR links. |
| Tickets.HolderName | src/services/bookingService.ts:142-153 | The holder is the trimmed given name when it is not blank. Otherwise it is 'name i+1' when names are short or absent, and the booker's name otherwise. |
| Tickets.NumberedNameNotBlank | src/services/bookingService.ts:149 | A numbered fallback name is never blank. |
| Tickets.HolderNameNotBlank | src/services/bookingService.ts:142-153 | A resolved holder is never blank unless the booker's own name is blank and a full list of names was given. |
| Tickets.HolderNamesExample | src/services/bookingService.ts:142-153 | For three seats and names ["Alice", ""], the holders are Alice, booker 2 and booker 3. |
| BookingService.OkSeats | src/services/bookingService.ts:156-176 | The seats with a ticket are exactly those whose insert succeeded, in ascending order. |
| BookingService.SeatTicketsAligned | src/services/bookingService.ts:142-176 | The k-th issued entry belongs to the k-th successful seat. Its number, QR link and holder all come from that seat, so the three arrays stay index-aligned. |
| BookingService.TicketRows | src/services/bookingService.ts:157-163 | One stored ticket per issued entry, with the booking id, the number and the holder, not yet attended. |
| BookingService.IssueTickets | src/services/bookingService.ts:142-176 | The seat loop issues exactly the aligned entries above and stores one row for each. |
| BookingService.CreateBookingFromCart | src/services/bookingService.ts:101-282 | A failed booking insert returns null with nothing created or sent. A booking is 'confirmed' and keeps the names array. The number, QR and holder arrays have one aligned entry per successful seat. The ticket email and WhatsApp message go out only with an event row and at least one ticket, and the confirmation always does. The email sent here carries the corrected holder list, one resolved holder per issued ticket. The source sends the raw names array instead (see TicketEmailAsWritten). |
| BookingService.TicketEmailAsWritten | src/services/bookingService.ts:185-199 | The ticket email as written: the k-th number is the k-th successful seat's number and the k-th QR link is that number's link, but the holder list is the raw names array. |
| BookingService.AsWrittenHolderNamesMisaligned | src/services/bookingService.ts:198 | When the first of two seats fails, the as-written email lists two holders for one ticket, and its first holder is not the ticket's holder. |
| BookingService.AsWrittenHolderListTooLong | src/services/bookingService.ts:185-199 | For every cart with one name per seat, a single failed seat makes the as-written email list more holder names than tickets. |
| BookingService.CorrectedHolderNamesAligned | src/services/bookingService.ts:142-176 | In the same cart the resolved holder list has one entry, belonging to the issued seat. |
| BookingService.InsertSeats | src/services/bookingService.ts:305-321 | The loop inserts the booker's tickets in seat order. It stops at the first failed insert and succeeds exactly when every seat was inserted. |
| BookingService.InsertSeatsOkIffAllOk | src/services/bookingService.ts:305-323 | The loop succeeds exactly when every seat's insert succeeds. |
| BookingService.GenerateTicketsForBooking | src/services/bookingService.ts:285-328 | A failed check returns false with nothing inserted. Existing tickets return true with nothing inserted. Otherwise tickets named after the booker are appended, and the result is true exactly when every insert succeeded. A failed run keeps the tickets of every seat before the one that failed. |
| BookingService.RetryAfterPartialFailure | src/services/bookingService.ts:298-321 | A run that fails after its first insert leaves tickets behind. A retry then finds them, inserts nothing and returns true, although the booking holds fewer tickets than seats. |
| BookingService.GenerateIdempotent | src/services/bookingService.ts:298-302 | Generating again after a successful generation inserts nothing and succeeds. |
| BookingService.ResendTicketEmail | src/services/bookingService.ts:331-378 | It returns false exactly when the event is missing or there are no tickets. Otherwise the numbers, QR links and holders follow the tickets one to one, and a missing or empty holder defaults to the booker. |
| BookingService.ShownHolder | src/services/bookingService.ts:355 | A resent ticket shows its own holder name when that is non-empty and the booker's name otherwise, so it is blank only when the booker's name is blank. |
| BookingService.EventStart | src/services/bookingService.ts:547-554 | An event without a time starts at the last millisecond of its day. One with a valid time starts within its day. |
| BookingService.MidnightStartsTheDay | src/services/bookingService.ts:547-550 | An event at 00:00 starts at the first millisecond of its date. |
| BookingService.StartsApartByClockTime | src/services/bookingService.ts:547-550 | On the same date, the starts at two clock times lie apart by exactly the minutes between the times. |
| BookingService.EventIsOver | src/services/bookingService.ts:547-559 | An event with a valid time, or none, is never over before four hours of its own day have passed. |
| BookingService.EventOverIsStable | src/services/bookingService.ts:557-559 | Once an event is over it stays over. |
| BookingService.UntimedEventEndsLast | src/services/bookingService.ts:547-554 | An event without a time ends no earlier than the same day's event at any valid time. |
| BookingService.NextDayPastGraceIsOver | src/services/bookingService.ts:547-559 | An event is over once four hours of the following day have passed. |
| BookingService.MarkTicketsAsAttended | src/services/bookingService.ts:381-415 | A failed bookings query gives false. No bookings gives true. Otherwise the result is the batch call's outcome. |
| BookingService.ProcessEvents | src/services/bookingService.ts:545-605 | Only events that are over produce a result. A failed mark gives a failure with no tickets updated. A successful mark with bookings found again gives a success with the tickets present, and one that finds no bookings again gives no result. With distinct event ids, each event has at most one result. |
| BookingService.ProcessCompletedEventsDirect | src/services/bookingService.ts:508-621 | It succeeds exactly when the events query succeeds. Every result concerns a fetched event dated before today and past its end. Every such event whose mark fails gives a failure, and one whose mark and re-read succeed gives a success with its ticket count. With distinct fetched ids there is one result per event at most. The total is the sum of the per-event counts. |

## Left out

- Realtime subscriptions are left out: `subscribeToBookingUpdates`, `subscribeToMembershipChanges` and the hook's subscription teardown. They are push-driven and concurrent.
- React rendering is left out: JSX layout, toasts, navigation effects and `useState` plumbing. Only the predicates, labels and texts the pages compute are modelled.
- Notification transports are left out: AWS SES, the HTML and text templates, `send-membership-email`, `send-ticket` and `send-whatsapp`. A notification is recorded as an attempted call whose failure is swallowed.
- The checkout button component is left out. It is SDK script loading and checkout wiring.
- The real HMAC-SHA256 is a parameter, and the Razorpay order API is a parameter reply.
- The query engine is not modelled. Its filters are sequence comprehensions.
- The race between finding the active row and inserting a new one, across concurrent purchases, is not modelled. Each call is a single step.
- Ticket-number uniqueness is not claimed. `Date.now()` and `Math.random()` guarantee nothing. The model only shows that equal numbers need equal draws.
- `getEventAttendanceStats` computes a floating-point percentage and is not modelled.
- `getUserBookings`, `getBookingTickets`, `getAllBookings` and `checkAttendanceFields` are plain reads and are not modelled. `resendTicketEmail` takes the tickets `getBookingTickets` returned as a parameter, with no ordering assumed.
- `processCompletedEvents` is not modelled. It first tries the `mark-attended` edge function and falls back to the direct path. That function's internals are not part of this model, so only the direct path is.
- The number `markTicketsAsAttended` reports is likewise a parameter of the batch call.
- Date formatting (`toISOString`, `toLocaleDateString`) and `JSON.parse` of preferences are left out. Dates are integers and preferences are a list.
- Time.DaysRemaining: the source divides floating-point numbers. The model uses the exact integer ceiling, which agrees with the source whenever the difference is below 2^26 days (about 180 000 years).
- VerifyPayment.PaidEnd: `setDate(getDate() + n)` adds calendar days in the server's time zone. The model adds `n` times 86 400 000 ms, which differs by an hour across a daylight-saving change.
- BookingService.EventIsOver: the event's date and time are read in UTC. The browser reads them in its local zone.
- BookingService.EventIsOver: a malformed `time` that gives NaN hours, so that the event never counts as over, is not modelled. Times are valid or absent.
- Updates whose error the source never inspects are taken to succeed: expiring the previous row, the sweep's status flips, and the mark-attended batch.
- VerifyPayment.VerifyMembershipPayment: an unset `RAZORPAY_KEY_SECRET` makes the real function throw and answer 400. This is not modelled.
- ExpirySweep.Sweep: a past-due row whose joined user is missing makes the source throw in the middle of its loop, after some rows were already flipped. The model assumes every joined user is present.
- BookingService.IssueTickets: the source inserts each ticket inside the loop. The model appends all of them after the loop, which is the same final table because nothing in the loop reads the tickets table.
- Records.ParseStatus: the source casts the status column without checking it. The model reads an unknown value as no status.
- BookingService.CreateBookingFromCart: the ticket email the model sends carries the corrected holder list, one resolved holder per issued ticket. The source sends the raw `ticketNames` argument, which `BookingService.TicketEmailAsWritten` models.
- CreatePayment.CreateMembershipPayment: a rejected `fetch` to the gateway, or a gateway reply that is not JSON, throws and answers 400 with the exception's message (create-membership-payment/index.ts:60-69). The model only has an accepted or refused order.
- Records.PlanById: the plan's price is an integer number of rupees. The source's `price_inr` is a JavaScript number, so a fractional price and the floating-point `* 100` are not modelled.
- SeatDraw: the millisecond reading of a ticket number is a natural number, that is, a clock at or after the epoch.

## Findings

| source | as written | input that shows it | evidently intended | confidence | as-written member | corrected member |
|---|---|---|---|---|---|---|
| src/services/bookingService.ts:198 | The ticket email's `ticketHolderNames` is the raw `ticketNames` argument. The other two arrays, `ticketNumbers` and `qrCodes`, hold only the seats whose insert succeeded. | Two seats with names ["Asha", "Ravi"], where the first seat's ticket insert fails. The email then carries one ticket (Ravi's) but two holder names, the first of which is "Asha". | The email lists the resolved holder of each issued ticket, index-aligned with the numbers and QR links, as `resendTicketEmail` does. | not executed | BookingService.AsWrittenHolderNamesMisaligned | BookingService.CorrectedHolderNamesAligned |

`BookingService.CreateBookingFromCart` sends the corrected, aligned holder list.

=== FILE: booking_service.dfy ===
/** The booking service: create a booking with one ticket per seat, issue
    missing tickets later, resend the ticket email, and decide which past
    events to mark as attended. */
module BookingService {
  import opened Wrappers
  import opened Text
  import opened Time
  import opened Tickets

  /** What the environment decides for one seat of the issuing loop: the
      clock reading, `Math.floor(Math.random() * 1000)`, and whether the
      ticket insert succeeded (an error reply and a thrown exception are
      treated alike). */
  datatype SeatDraw = SeatDraw(millis: nat, rand: nat, insertOk: bool)

  predicate ValidDraws(draws: seq<SeatDraw>, seats: nat) {
    |draws| >= seats && forall i :: 0 <= i < |draws| ==> draws[i].rand < 1000
  }

  function SeatNumber(d: SeatDraw): string
    requires d.rand < 1000
  {
    TicketNumber(d.millis, d.rand)
  }

  /** The seats among the first `n` whose insert succeeded, ascending. */
  function OkSeats(draws: seq<SeatDraw>, n: nat): (s: seq<nat>)
    requires n <= |draws|
    ensures |s| <= n
    ensures forall k :: 0 <= k < |s| ==> s[k] < n && draws[s[k]].insertOk
    ensures forall k, l :: 0 <= k < l < |s| ==> s[k] < s[l]
    ensures forall i :: 0 <= i < n && draws[i].insertOk ==> i in s
  {
    if n == 0 then [] else OkSeats(draws, n - 1) + (if draws[n - 1].insertOk then [n - 1] else [])
  }

  /** The calls the service makes to notification senders. */
  datatype Notification =
    | TicketEmail(
        to: string,
        name: string,
        eventTitle: string,
        ticketNumbers: seq<string>,
        qrCodes: seq<string>,
        holderNames: seq<string>)
    | WhatsApp(to: string, eventTitle: string, ticketCount: int)
    | DirectConfirmation(to: string, subject: string)

  const DefaultEventTitle: string := "Mojo Event"

  /** `Your Booking Confirmation for ${eventData?.title || 'Mojo Event'}`. */
  function ConfirmationSubject(event: Option<Event>): string {
    "Your Booking Confirmation for "
      + (if event.Some? && event.value.title != "" then event.value.title else DefaultEventTitle)
  }

  /** What the seat loop records for one issued seat. */
  datatype SeatTicket = SeatTicket(seat: nat, number: string, qr: string, holder: string)

  /** Seat `i`'s ticket number, QR link and holder name. */
  function SeatEntry(d: SeatDraw, ticketNames: Option<seq<string>>, tickets: int, name: string, i: nat): SeatTicket
    requires d.rand < 1000
  {
    var number := SeatNumber(d);
    SeatTicket(i, number, QrUrl(number), HolderName(ticketNames, i, tickets, name))
  }

  /** The seats among the first `n` that end up with a ticket, each with
      its ticket number, QR link and resolved holder name. */
  function SeatTickets(draws: seq<SeatDraw>, ticketNames: Option<seq<string>>, tickets: int, name: string, n: nat)
    : (r: seq<SeatTicket>)
    requires n <= |draws| && ValidDraws(draws, n)
    ensures |r| <= n
  {
    if n == 0 then []
    else
      var before := SeatTickets(draws, ticketNames, tickets, name, n - 1);
      if !draws[n - 1].insertOk then before
      else before + [SeatEntry(draws[n - 1], ticketNames, tickets, name, n - 1)]
  }

  /** Entry `k` of the issued list belongs to the `k`-th seat whose insert
      succeeded, and carries that seat's ticket number, QR link and holder. */
  lemma {:induction false} SeatTicketsAligned(
    draws: seq<SeatDraw>, ticketNames: Option<seq<string>>, tickets: int, name: string, n: nat)
    requires n <= |draws| && ValidDraws(draws, n)
    ensures var r := SeatTickets(draws, ticketNames, tickets, name, n);
            && |r| == |OkSeats(draws, n)|
            && forall k :: 0 <= k < |r| ==>
                 r[k] == SeatEntry(draws[OkSeats(draws, n)[k]], ticketNames, tickets, name, OkSeats(draws, n)[k])
  {
    if n > 0 {
      SeatTicketsAligned(draws, ticketNames, tickets, name, n - 1);
    }
  }

  /** The ticket rows stored for the issued seats, in order. */
  function TicketRows(bookingId: string, issued: seq<SeatTicket>): (rows: seq<Ticket>)
    ensures |rows| == |issued|
    ensures forall k :: 0 <= k < |rows| ==>
              rows[k] == Ticket(bookingId, issued[k].number, Some(issued[k].holder), false)
  {
    if |issued| == 0 then []
    else
      var last := issued[|issued| - 1];
      TicketRows(bookingId, issued[..|issued| - 1]) + [Ticket(bookingId, last.number, Some(last.holder), false)]
  }

  /** The seat loop of `createBookingFromCart`: seat `i` gets a ticket
      number, a QR link and a holder name, and is recorded only when its
      insert succeeds. The three arrays are kept as one list of records. */
  method IssueTickets(bookingId: string, name: string, tickets: int, ticketNames: Option<seq<string>>,
                      draws: seq<SeatDraw>, store: seq<Ticket>)
    returns (issued: seq<SeatTicket>, storeAfter: seq<Ticket>)
    requires ValidDraws(draws, SeatCount(tickets))
    ensures issued == SeatTickets(draws, ticketNames, tickets, name, SeatCount(tickets))
    ensures storeAfter == store + TicketRows(bookingId, issued)
  {
    issued := [];
    var i := 0;
    while i < SeatCount(tickets)
      invariant 0 <= i <= SeatCount(tickets)
      invariant issued == SeatTickets(draws, ticketNames, tickets, name, i)
    {
      var entry := SeatEntry(draws[i], ticketNames, tickets, name, i);
      if draws[i].insertOk {
        issued := issued + [entry];
      }
      i := i + 1;
    }
    // nothing reads the tickets table inside the loop, so the inserts can
    // be applied together
    storeAfter := store + TicketRows(bookingId, issued);
  }

  /** `createBookingFromCart`. `bookingInsert` is the booking insert's reply
      (the new row's id, or an error); `draws[i]` decides seat `i`; `event`
      is the event row read for the notifications. The returned `sent`
      lists the notifications attempted; their own failures are swallowed,
      so nothing returned depends on them. */
  method CreateBookingFromCart(
    userId: string, eventId: string, name: string, email: string, phone: string,
    tickets: int, amount: int, ticketNames: Option<seq<string>>,
    bookingInsert: Result<string>, now: int, draws: seq<SeatDraw>,
    event: Option<Event>, store: seq<Ticket>)
    returns (booking: Option<Booking>, ticketNumbers: seq<string>, qrCodes: seq<string>,
             holderNames: seq<string>, storeAfter: seq<Ticket>, sent: seq<Notification>)
    requires ValidDraws(draws, SeatCount(tickets))
    // a failed booking insert returns null and creates nothing
    ensures booking.None? <==> bookingInsert.Err?
    ensures booking.None? ==> storeAfter == store && sent == [] && ticketNumbers == []
    ensures booking.Some? ==>
              booking.value == Booking(bookingInsert.value, userId, eventId, name, email, phone,
                                       tickets, amount, "confirmed", now, ticketNames)
    // one entry per seat whose insert succeeded, in seat order, stored as well
    ensures booking.Some? ==>
              var issued := SeatTickets(draws, ticketNames, tickets, name, SeatCount(tickets));
              && |ticketNumbers| == |issued| && |qrCodes| == |issued| && |holderNames| == |issued|
              && (forall k :: 0 <= k < |issued| ==>
                    && ticketNumbers[k] == issued[k].number
                    && qrCodes[k] == issued[k].qr
                    && holderNames[k] == issued[k].holder)
              && storeAfter == store + TicketRows(booking.value.id, issued)
    // ticket email and WhatsApp only with an event row and at least one ticket
    ensures booking.Some? && event.Some? && |ticketNumbers| > 0 ==>
              sent == [TicketEmail(email, name, event.value.title, ticketNumbers, qrCodes, holderNames),
                       WhatsApp(phone, event.value.title, tickets),
                       DirectConfirmation(email, ConfirmationSubject(event))]
    ensures booking.Some? && (event.None? || |ticketNumbers| == 0) ==>
              sent == [DirectConfirmation(email, ConfirmationSubject(event))]
  {
    if bookingInsert.Err? {
      return None, [], [], [], store, [];
    }
    var b := Booking(bookingInsert.value, userId, eventId, name, email, phone,
                     tickets, amount, "confirmed", now, ticketNames);
    booking := Some(b);
    var issued;
    issued, storeAfter := IssueTickets(b.id, name, tickets, ticketNames, draws, store);
    ticketNumbers := seq(|issued|, k requires 0 <= k < |issued| => issued[k].number);
    qrCodes := seq(|issued|, k requires 0 <= k < |issued| => issued[k].qr);
    holderNames := seq(|issued|, k requires 0 <= k < |issued| => issued[k].holder);
    sent := [];
    if event.Some? && |ticketNumbers| > 0 {
      sent := [TicketEmail(email, name, event.value.title, ticketNumbers, qrCodes, holderNames),
               WhatsApp(phone, event.value.title, tickets)];
    }
    sent := sent + [DirectConfirmation(email, ConfirmationSubject(event))];
  }

  /** The ticket email as the source builds it: its holder names are the
      caller's raw `ticketNames` (or absent), not the names resolved per
      issued ticket. */
  datatype RawTicketEmail = RawTicketEmail(
    ticketNumbers: seq<string>,
    qrCodes: seq<string>,
    holderNames: Option<seq<string>>)

  function TicketEmailAsWritten(
    ticketNames: Option<seq<string>>, draws: seq<SeatDraw>, seats: nat)
    : (e: RawTicketEmail)
    requires ValidDraws(draws, seats)
    ensures |e.ticketNumbers| == |OkSeats(draws, seats)| && |e.qrCodes| == |e.ticketNumbers|
    ensures forall k :: 0 <= k < |e.ticketNumbers| ==>
              && e.ticketNumbers[k] == SeatNumber(draws[OkSeats(draws, seats)[k]])
              && e.qrCodes[k] == QrUrl(e.ticketNumbers[k])
    ensures e.holderNames == ticketNames
  {
    var issued := OkSeats(draws, seats);
    var numbers := seq(|issued|, k requires 0 <= k < |issued| => SeatNumber(draws[issued[k]]));
    RawTicketEmail(numbers, seq(|numbers|, k requires 0 <= k < |numbers| => QrUrl(numbers[k])), ticketNames)
  }

  /** A two-seat cart whose first ticket insert fails. */
  const ExampleNames: Option<seq<string>> := Some(["Asha", "Ravi"])
  const ExampleDraws: seq<SeatDraw> := [SeatDraw(0, 7, false), SeatDraw(0, 8, true)]

  lemma ExampleIssuesSecondSeatOnly()
    ensures ValidDraws(ExampleDraws, 2) && OkSeats(ExampleDraws, 2) == [1]
  {
    assert OkSeats(ExampleDraws, 1) == [];
  }

  lemma ExampleSecondHolderIsRavi(booker: string)
    ensures HolderName(ExampleNames, 1, 2, booker) == "Ravi"
  {
    TrimKeepsUnpadded("Ravi");
  }

  /** When the first seat's insert fails, the as-written email pairs the
      only issued ticket (seat 2, held by "Ravi") with the first raw name,
      "Asha", and still lists two names for one ticket. */
  lemma AsWrittenHolderNamesMisaligned(booker: string)
    ensures ValidDraws(ExampleDraws, 2)
    ensures var e := TicketEmailAsWritten(ExampleNames, ExampleDraws, 2);
            && |e.ticketNumbers| == 1
            && |e.holderNames.value| == 2
            && e.holderNames.value[0] == "Asha"
            && HolderName(ExampleNames, OkSeats(ExampleDraws, 2)[0], 2, booker) == "Ravi"
  {
    ExampleIssuesSecondSeatOnly();
    ExampleSecondHolderIsRavi(booker);
  }

  /** Entry `i` of an ascending list of seats is at least `i`. */
  lemma {:induction false} AscendingAtLeastIndex(s: seq<nat>, i: nat)
    requires forall k, l :: 0 <= k < l < |s| ==> s[k] < s[l]
    requires i < |s|
    ensures s[i] >= i
    decreases i
  {
    if i > 0 {
      AscendingAtLeastIndex(s, i - 1);
    }
  }

  /** Entry `i` of an ascending list of seats below `n` leaves room above
      it for the entries after it. */
  lemma {:induction false} AscendingRoomAbove(s: seq<nat>, n: nat, i: nat)
    requires forall k, l :: 0 <= k < l < |s| ==> s[k] < s[l]
    requires forall k :: 0 <= k < |s| ==> s[k] < n
    requires i < |s|
    ensures s[i] + (|s| - i) <= n
    decreases |s| - i
  {
    if i + 1 < |s| {
      AscendingRoomAbove(s, n, i + 1);
    }
  }

  /** A seat whose insert fails has no ticket, so fewer tickets than seats
      are issued. */
  lemma FailedSeatMeansFewerTickets(draws: seq<SeatDraw>, seats: nat, k: nat)
    requires seats <= |draws| && k < seats && !draws[k].insertOk
    ensures |OkSeats(draws, seats)| < seats
  {
    var s := OkSeats(draws, seats);
    if |s| == seats {
      AscendingAtLeastIndex(s, k);
      AscendingRoomAbove(s, seats, k);
    }
  }

  /** For every cart with one name per seat in which some seat's insert
      fails, the as-written email lists more holder names than tickets, so
      from the failed seat on, names and tickets are paired wrongly. */
  lemma AsWrittenHolderListTooLong(ticketNames: seq<string>, draws: seq<SeatDraw>, seats: nat, k: nat)
    requires ValidDraws(draws, seats) && |ticketNames| == seats
    requires k < seats && !draws[k].insertOk
    ensures var e := TicketEmailAsWritten(Some(ticketNames), draws, seats);
            |e.holderNames.value| > |e.ticketNumbers|
  {
    FailedSeatMeansFewerTickets(draws, seats, k);
  }

  /** In the same cart, the corrected email lists one holder for the one
      ticket, and it is the name stored on that ticket. */
  lemma CorrectedHolderNamesAligned(booker: string)
    ensures ValidDraws(ExampleDraws, 2)
    ensures var issued := SeatTickets(ExampleDraws, ExampleNames, 2, booker, 2);
            |issued| == 1 && issued[0].seat == 1 && issued[0].holder == "Ravi"
  {
    ExampleIssuesSecondSeatOnly();
    ExampleSecondHolderIsRavi(booker);
    SeatTicketsAligned(ExampleDraws, ExampleNames, 2, booker, 2);
  }

  datatype GenerateOutcome = GenerateOutcome(ok: bool, tickets: seq<Ticket>)

  predicate HasTicketsFor(store: seq<Ticket>, bookingId: string) {
    exists t :: t in store && t.bookingId == bookingId
  }

  predicate AllOk(draws: seq<SeatDraw>, from: nat, to: nat)
    requires from <= to <= |draws|
  {
    forall j :: from <= j < to ==> draws[j].insertOk
  }

  /** The ticket `generateTicketsForBooking` inserts for one seat: unused
      and named after the booker. */
  function BookerTicket(b: Booking, d: SeatDraw): (t: Ticket)
    requires d.rand < 1000
    ensures t.bookingId == b.id && t.username == Some(b.name) && !t.attended
  {
    Ticket(b.id, SeatNumber(d), Some(b.name), false)
  }

  datatype InsertRun = InsertRun(ok: bool, inserted: seq<Ticket>)

  /** Seats `i..` of `generateTicketsForBooking`'s loop: every ticket is
      named after the booker, and the first failed insert ends the loop
      with `false`, keeping the tickets already inserted. */
  function InsertSeats(b: Booking, draws: seq<SeatDraw>, i: nat): (r: InsertRun)
    requires i <= SeatCount(b.tickets) && ValidDraws(draws, SeatCount(b.tickets))
    ensures i + |r.inserted| <= SeatCount(b.tickets)
    ensures forall k :: 0 <= k < |r.inserted| ==>
              r.inserted[k] == BookerTicket(b, draws[i + k])
    ensures AllOk(draws, i, i + |r.inserted|)
    ensures r.ok <==> i + |r.inserted| == SeatCount(b.tickets)
    ensures !r.ok ==> !draws[i + |r.inserted|].insertOk
    decreases SeatCount(b.tickets) - i
  {
    if i == SeatCount(b.tickets) then InsertRun(true, [])
    else if !draws[i].insertOk then InsertRun(false, [])
    else
      var rest := InsertSeats(b, draws, i + 1);
      var r := InsertRun(rest.ok, [BookerTicket(b, draws[i])] + rest.inserted);
      ExtendRun(b, draws, i, rest, r);
      r
  }

  /** One more successful seat in front of a run keeps the run's
      tickets matched to their seats and all of its seats inserted. */
  lemma ExtendRun(b: Booking, draws: seq<SeatDraw>, i: nat, rest: InsertRun, r: InsertRun)
    requires i < SeatCount(b.tickets) && ValidDraws(draws, SeatCount(b.tickets)) && draws[i].insertOk
    requires i + 1 + |rest.inserted| <= SeatCount(b.tickets)
    requires forall k :: 0 <= k < |rest.inserted| ==> rest.inserted[k] == BookerTicket(b, draws[i + 1 + k])
    requires AllOk(draws, i + 1, i + 1 + |rest.inserted|)
    requires r == InsertRun(rest.ok, [BookerTicket(b, draws[i])] + rest.inserted)
    ensures i + |r.inserted| == i + 1 + |rest.inserted|
    ensures forall k :: 0 <= k < |r.inserted| ==> r.inserted[k] == BookerTicket(b, draws[i + k])
    ensures AllOk(draws, i, i + |r.inserted|)
  {
    forall k | 0 <= k < |r.inserted|
      ensures r.inserted[k] == BookerTicket(b, draws[i + k])
    {
      if k > 0 {
        assert r.inserted[k] == rest.inserted[k - 1];
      }
    }
  }

  /** The loop succeeds exactly when every seat's insert succeeds. */
  lemma InsertSeatsOkIffAllOk(b: Booking, draws: seq<SeatDraw>)
    requires ValidDraws(draws, SeatCount(b.tickets))
    ensures InsertSeats(b, draws, 0).ok <==> AllOk(draws, 0, SeatCount(b.tickets))
  {
    var r := InsertSeats(b, draws, 0);
    if !r.ok {
      assert !draws[|r.inserted|].insertOk;
    }
  }

  /** `generateTicketsForBooking`. `checkError` is the existing-tickets
      query failing; otherwise the query sees the tickets in `store`. */
  function GenerateTicketsForBooking(b: Booking, checkError: bool, store: seq<Ticket>, draws: seq<SeatDraw>)
    : (r: GenerateOutcome)
    requires ValidDraws(draws, SeatCount(b.tickets))
    ensures checkError ==> r == GenerateOutcome(false, store)
    ensures !checkError && HasTicketsFor(store, b.id) ==> r == GenerateOutcome(true, store)
    ensures |r.tickets| >= |store| && r.tickets[..|store|] == store
    ensures forall k :: |store| <= k < |r.tickets| ==>
              r.tickets[k].bookingId == b.id && r.tickets[k].username == Some(b.name)
    ensures !checkError && !HasTicketsFor(store, b.id) ==>
              (r.ok <==> AllOk(draws, 0, SeatCount(b.tickets)))
              && (r.ok ==> |r.tickets| == |store| + SeatCount(b.tickets))
    // a failed run keeps the tickets inserted before the seat that failed
    ensures !checkError && !HasTicketsFor(store, b.id) && !r.ok ==>
              exists j :: 0 <= j < SeatCount(b.tickets) && AllOk(draws, 0, j) && !draws[j].insertOk
                          && |r.tickets| == |store| + j
  {
    if checkError then GenerateOutcome(false, store)
    else if HasTicketsFor(store, b.id) then GenerateOutcome(true, store)
    else
      var run := InsertSeats(b, draws, 0);
      InsertSeatsOkIffAllOk(b, draws);
      assert !run.ok ==> |run.inserted| < SeatCount(b.tickets) && !draws[|run.inserted|].insertOk;
      GenerateOutcome(run.ok, store + run.inserted)
  }

  /** Issuing again after a successful issue inserts nothing and succeeds. */
  lemma GenerateIdempotent(b: Booking, store: seq<Ticket>, d1: seq<SeatDraw>, d2: seq<SeatDraw>)
    requires ValidDraws(d1, SeatCount(b.tickets)) && ValidDraws(d2, SeatCount(b.tickets))
    requires GenerateTicketsForBooking(b, false, store, d1).ok
    ensures var once := GenerateTicketsForBooking(b, false, store, d1).tickets;
            GenerateTicketsForBooking(b, false, once, d2) == GenerateOutcome(true, once)
  {
    var once := GenerateTicketsForBooking(b, false, store, d1).tickets;
    if !HasTicketsFor(store, b.id) && SeatCount(b.tickets) > 0 {
      assert once[|store|] in once;
      assert HasTicketsFor(once, b.id);
    }
  }

  /** A run that fails after inserting its first seat leaves that ticket
      behind, so a retry finds it, inserts nothing and reports success
      while the booking holds fewer tickets than it has seats. */
  lemma RetryAfterPartialFailure(b: Booking, store: seq<Ticket>, d1: seq<SeatDraw>, d2: seq<SeatDraw>)
    requires ValidDraws(d1, SeatCount(b.tickets)) && ValidDraws(d2, SeatCount(b.tickets))
    requires !HasTicketsFor(store, b.id)
    requires SeatCount(b.tickets) > 0 && d1[0].insertOk && !AllOk(d1, 0, SeatCount(b.tickets))
    ensures var first := GenerateTicketsForBooking(b, false, store, d1);
            && !first.ok
            && |store| < |first.tickets| < |store| + SeatCount(b.tickets)
            && GenerateTicketsForBooking(b, false, first.tickets, d2) == GenerateOutcome(true, first.tickets)
  {
    var first := GenerateTicketsForBooking(b, false, store, d1);
    var run := InsertSeats(b, d1, 0);
    assert first.tickets == store + run.inserted;
    assert first.tickets[|store|] in first.tickets;
    assert HasTicketsFor(first.tickets, b.id);
  }

  datatype ResendOutcome = ResendOutcome(returned: bool, email: Option<Notification>)

  /** `ticket.username || booking.name`. */
  function ShownHolder(t: Ticket, b: Booking): (h: string)
    ensures t.username.Some? && t.username.value != "" ==> h == t.username.value
    ensures t.username.None? || t.username.value == "" ==> h == b.name
    ensures h == b.name || (t.username.Some? && h == t.username.value)
    ensures h == "" ==> b.name == ""
  {
    if t.username.Some? && t.username.value != "" then t.username.value else b.name
  }

  /** `resendTicketEmail`. `tickets` is what `getBookingTickets` returned
      (`[]` on a query error). The invoke reports its failure in its reply
      rather than throwing, so once the email is attempted the result is
      `true`. */
  function ResendTicketEmail(b: Booking, event: Option<Event>, tickets: seq<Ticket>): (r: ResendOutcome)
    ensures !r.returned <==> event.None? || |tickets| == 0
    ensures r.email.Some? <==> r.returned
    ensures r.returned ==>
              && r.email.value.TicketEmail?
              && r.email.value.to == b.email
              && |r.email.value.ticketNumbers| == |tickets|
              && |r.email.value.qrCodes| == |tickets|
              && |r.email.value.holderNames| == |tickets|
              && forall k :: 0 <= k < |tickets| ==>
                   && r.email.value.ticketNumbers[k] == tickets[k].ticketNumber
                   && QrData(r.email.value.qrCodes[k]) == Some(tickets[k].ticketNumber)
                   && r.email.value.holderNames[k] == ShownHolder(tickets[k], b)
  {
    if event.None? || |tickets| == 0 then ResendOutcome(false, None)
    else
      var numbers := seq(|tickets|, k requires 0 <= k < |tickets| => tickets[k].ticketNumber);
      var qrs := seq(|tickets|, k requires 0 <= k < |tickets| => QrUrl(tickets[k].ticketNumber));
      var holders := seq(|tickets|, k requires 0 <= k < |tickets| => ShownHolder(tickets[k], b));
      ResendOutcome(true, Some(TicketEmail(b.email, b.name, event.value.title, numbers, qrs, holders)))
  }

  /** An event with no time is taken to start at 23:59:59.999. */
  const EndOfDayMs: int := 23 * MsPerHour + 59 * MsPerMinute + 59 * MsPerSecond + 999
  /** How long after its start an event counts as finished. */
  const AttendanceGraceMs: int := 4 * MsPerHour

  /** The event's start: its date at HH:MM:00.000, or at the end of the
      day when no time is stored (local time taken as UTC). */
  function EventStart(e: Event): (start: int)
    ensures e.time.None? ==> start == (e.date + 1) * MsPerDay - 1
    ensures e.time.Some? && 0 <= e.time.value.hours <= 23 && 0 <= e.time.value.minutes <= 59 ==>
              e.date * MsPerDay <= start < (e.date + 1) * MsPerDay
  {
    e.date * MsPerDay + match e.time
      case Some(t) => t.hours * MsPerHour + t.minutes * MsPerMinute
      case None => EndOfDayMs
  }

  /** Over four hours after the start; with a valid time (or none), never
      before four hours of the event's own day have passed. */
  predicate EventIsOver(e: Event, now: int): (over: bool)
    ensures over && (e.time.Some? ==> 0 <= e.time.value.hours <= 23 && 0 <= e.time.value.minutes <= 59) ==>
              now > e.date * MsPerDay + AttendanceGraceMs
  {
    now > EventStart(e) + AttendanceGraceMs
  }

  /** An event at 00:00 starts at the first millisecond of its day. */
  lemma MidnightStartsTheDay(e: Event)
    requires e.time == Some(ClockTime(0, 0))
    ensures EventStart(e) == e.date * MsPerDay
  {
  }

  /** The same day at two clock times: the starts lie apart by exactly the
      minutes between the two times. */
  lemma StartsApartByClockTime(e: Event, t1: ClockTime, t2: ClockTime)
    ensures EventStart(e.(time := Some(t2))) - EventStart(e.(time := Some(t1))) ==
            ((t2.hours - t1.hours) * 60 + t2.minutes - t1.minutes) * MsPerMinute
  {
  }

  /** Once over, an event stays over. */
  lemma EventOverIsStable(e: Event, now: int, later: int)
    requires EventIsOver(e, now) && now <= later
    ensures EventIsOver(e, later)
  {
  }

  /** An event without a time ends no earlier than the same day's event at
      any valid HH:MM, so it is the last of them to count as over. */
  lemma UntimedEventEndsLast(e: Event, t: ClockTime, now: int)
    requires e.time.None?
    requires 0 <= t.hours <= 23 && 0 <= t.minutes <= 59
    requires EventIsOver(e, now)
    ensures EventIsOver(e.(time := Some(t)), now)
  {
  }

  /** An event with a valid time is over once four hours of the next day
      have passed, so an event dated two or more days back is always over. */
  lemma NextDayPastGraceIsOver(e: Event, now: int)
    requires e.time.Some? ==> 0 <= e.time.value.hours <= 23 && 0 <= e.time.value.minutes <= 59
    requires now >= (e.date + 1) * MsPerDay + AttendanceGraceMs
    ensures EventIsOver(e, now)
  {
  }

  /** The direct path reads only events dated before today (UTC). */
  predicate DatedBeforeToday(e: Event, now: int) {
    e.date < now / MsPerDay
  }

  /** `markTicketsAsAttended`: fails when the bookings query fails, succeeds
      without any call when the event has no bookings, and otherwise
      reports the batch call's outcome. */
  function MarkTicketsAsAttended(bookings: Result<nat>, invokeOk: bool): (ok: bool)
    ensures bookings.Err? ==> !ok
    ensures bookings.Ok? && bookings.value == 0 ==> ok
    ensures bookings.Ok? && bookings.value > 0 ==> (ok <==> invokeOk)
  {
    match bookings
    case Err(_) => false
    case Ok(count) => count == 0 || invokeOk
  }

  /** What the remote calls made for one completed event return. */
  datatype EventProbe = EventProbe(
    markBookings: Result<nat>,
    markInvokeOk: bool,
    bookingsAgain: Result<nat>,
    presentCount: nat)

  datatype EventResult = EventResult(eventId: string, success: bool, ticketsUpdated: nat)

  function SumUpdated(results: seq<EventResult>): nat {
    if |results| == 0 then 0 else SumUpdated(results[..|results| - 1]) + results[|results| - 1].ticketsUpdated
  }

  /** The loop of `processCompletedEventsDirect` over the fetched events:
      each event that is over and whose marking fails gets a failure
      result; each one marked whose bookings are found again gets the
      count of its present records; no other event gets a result. */
  function ProcessEvents(events: seq<Event>, now: int, probe: string -> EventProbe): (results: seq<EventResult>)
    ensures forall r :: r in results ==> exists e :: e in events && e.id == r.eventId && EventIsOver(e, now)
    ensures forall r :: r in results && !r.success ==> r.ticketsUpdated == 0
    ensures |results| <= |events|
    // every result says what its event's calls returned
    ensures forall r :: r in results ==>
              var p := probe(r.eventId);
              if r.success then
                && MarkTicketsAsAttended(p.markBookings, p.markInvokeOk)
                && p.bookingsAgain.Ok? && p.bookingsAgain.value > 0
                && r.ticketsUpdated == p.presentCount
              else !MarkTicketsAsAttended(p.markBookings, p.markInvokeOk)
    // and every event that is over gets the result its calls call for
    ensures forall e :: e in events && EventIsOver(e, now) &&
                        !MarkTicketsAsAttended(probe(e.id).markBookings, probe(e.id).markInvokeOk) ==>
              EventResult(e.id, false, 0) in results
    ensures forall e :: e in events && EventIsOver(e, now) &&
                        MarkTicketsAsAttended(probe(e.id).markBookings, probe(e.id).markInvokeOk) &&
                        probe(e.id).bookingsAgain.Ok? && probe(e.id).bookingsAgain.value > 0 ==>
              EventResult(e.id, true, probe(e.id).presentCount) in results
    // with event ids unique, no event is reported twice
    ensures DistinctKeys(events, EventId) ==> DistinctKeys(results, ResultEventId)
  {
    if |events| == 0 then []
    else
      var e := events[|events| - 1];
      var prefix := events[..|events| - 1];
      var before := ProcessEvents(prefix, now, probe);
      assert events == prefix + [e];
      assert forall x :: x in events ==> x == e || x in prefix;
      assert forall x :: x in prefix ==> x in events;
      var results :=
        if !EventIsOver(e, now) then before
        else
          var p := probe(e.id);
          if !MarkTicketsAsAttended(p.markBookings, p.markInvokeOk) then
            before + [EventResult(e.id, false, 0)]
          else if p.bookingsAgain.Err? || p.bookingsAgain.value == 0 then before
          else before + [EventResult(e.id, true, p.presentCount)];
      DistinctAfterLastEvent(events, now, probe, before, results);
      results
  }

  function EventId(e: Event): string { e.id }

  function ResultEventId(r: EventResult): string { r.eventId }

  /** Appending the last event's result keeps result ids distinct: the
      earlier results belong to earlier events, whose ids differ from the
      last one's. */
  lemma DistinctAfterLastEvent(
    events: seq<Event>, now: int, probe: string -> EventProbe,
    before: seq<EventResult>, results: seq<EventResult>)
    requires |events| > 0
    requires forall r :: r in before ==> exists e :: e in events[..|events| - 1] && e.id == r.eventId
    requires DistinctKeys(events[..|events| - 1], EventId) ==> DistinctKeys(before, ResultEventId)
    requires results == before || exists r :: results == before + [r] && r.eventId == events[|events| - 1].id
    ensures DistinctKeys(events, EventId) ==> DistinctKeys(results, ResultEventId)
  {
    if DistinctKeys(events, EventId) {
      var prefix := events[..|events| - 1];
      var last := events[|events| - 1];
      assert DistinctKeys(prefix, EventId) by {
        forall i, j | 0 <= i < j < |prefix| ensures prefix[i].id != prefix[j].id {
          assert prefix[i] == events[i] && prefix[j] == events[j];
        }
      }
      if results != before {
        var r :| results == before + [r] && r.eventId == last.id;
        forall x | x in before ensures x.eventId != last.id {
          var e :| e in prefix && e.id == x.eventId;
          var k :| 0 <= k < |prefix| && prefix[k] == e;
          assert events[k] == e;
        }
        forall i, j | 0 <= i < j < |results| ensures results[i].eventId != results[j].eventId {
          if j == |before| {
            assert results[i] == before[i] && results[i] in before;
          } else {
            assert results[i] == before[i] && results[j] == before[j];
          }
        }
      }
    }
  }

  datatype ProcessSummary = ProcessSummary(success: bool, totalTicketsUpdated: nat, results: seq<EventResult>)

  /** The `.lt('date', today)` condition of the events query. */
  function BeforeToday(now: int): Event -> bool {
    (e: Event) => DatedBeforeToday(e, now)
  }

  /** `processCompletedEventsDirect`: only events dated before today and
      more than four hours past their start are processed; an event held
      today is left for a later run even once it is over. */
  function ProcessCompletedEventsDirect(fetch: Result<seq<Event>>, now: int, probe: string -> EventProbe)
    : (r: ProcessSummary)
    ensures r.success <==> fetch.Ok?
    ensures fetch.Err? ==> r.results == [] && r.totalTicketsUpdated == 0
    ensures forall x :: x in r.results ==>
              exists e :: e in fetch.value && e.id == x.eventId && DatedBeforeToday(e, now) && EventIsOver(e, now)
    ensures r.totalTicketsUpdated == SumUpdated(r.results)
    // every fetched event dated before today and over is reported as its calls decide
    ensures fetch.Ok? ==>
              forall e :: e in fetch.value && DatedBeforeToday(e, now) && EventIsOver(e, now) &&
                          !MarkTicketsAsAttended(probe(e.id).markBookings, probe(e.id).markInvokeOk) ==>
                EventResult(e.id, false, 0) in r.results
    ensures fetch.Ok? ==>
              forall e :: e in fetch.value && DatedBeforeToday(e, now) && EventIsOver(e, now) &&
                          MarkTicketsAsAttended(probe(e.id).markBookings, probe(e.id).markInvokeOk) &&
                          probe(e.id).bookingsAgain.Ok? && probe(e.id).bookingsAgain.value > 0 ==>
                EventResult(e.id, true, probe(e.id).presentCount) in r.results
    ensures fetch.Ok? && DistinctKeys(fetch.value, EventId) ==> DistinctKeys(r.results, ResultEventId)
  {
    match fetch
    case Err(_) => ProcessSummary(false, 0, [])
    case Ok(rows) =>
      var events := Filter(rows, BeforeToday(now));
      FetchedIdsStayDistinct(rows, now);
      var results := ProcessEvents(events, now, probe);
      ProcessSummary(true, SumUpdated(results), results)
  }

  /** The events query keeps distinct ids distinct. */
  lemma FetchedIdsStayDistinct(rows: seq<Event>, now: int)
    ensures DistinctKeys(rows, EventId) ==> DistinctKeys(Filter(rows, BeforeToday(now)), EventId)
  {
    if DistinctKeys(rows, EventId) {
      FilterKeepsDistinctKeys(rows, BeforeToday(now), EventId);
    }
  }
}

=== FILE: client_renewal.dfy ===
/** What the pricing page and the profile page share: the latest
    membership they load and the row they insert when a member subscribes
    or renews from the browser, without the payment edge function. */
module ClientRenewal {
  import opened Wrappers
  import opened Records
  import VerifyPayment

  /** The newest of `rows` by `created_at`; among equal times, the first. */
  function Newest(rows: seq<Membership>): (r: Option<Membership>)
    ensures r.None? <==> |rows| == 0
    ensures r.Some? ==> r.value in rows
    ensures r.Some? ==> forall m :: m in rows ==> m.createdAt <= r.value.createdAt
  {
    if |rows| == 0 then None
    else
      match Newest(rows[1..])
      case None => Some(rows[0])
      case Some(m) =>
        assert forall x :: x in rows ==> x == rows[0] || x in rows[1..];
        if rows[0].createdAt >= m.createdAt then Some(rows[0]) else Some(m)
  }

  /** `.eq('user_id', id).order('created_at', desc).limit(1).maybeSingle()`:
      the user's newest row of any status. */
  function LatestMembership(rows: seq<Membership>, userId: string): (r: Option<Membership>)
    ensures r.None? <==> forall m :: m in rows ==> m.userId != userId
    ensures r.Some? ==> r.value in rows && r.value.userId == userId
    ensures r.Some? ==> forall m :: m in rows && m.userId == userId ==> m.createdAt <= r.value.createdAt
  {
    var mine := Filter(rows, (m: Membership) => m.userId == userId);
    assert |mine| == 0 <==> forall m :: m in rows ==> m.userId != userId by {
      if |mine| > 0 { assert mine[0] in mine; }
    }
    Newest(mine)
  }

  /** `end && end > now ? end : now`, with `end` null when the row has no
      end date. */
  function ClientStart(latestEnd: Option<int>, now: int): (start: int)
    ensures start >= now
    ensures latestEnd.Some? && latestEnd.value > now ==> start == latestEnd.value
    ensures latestEnd.None? || latestEnd.value <= now ==> start == now
  {
    if latestEnd.Some? && latestEnd.value > now then latestEnd.value else now
  }

  /** The row the browser inserts: active, the chosen plan, the start
      above, and no end date, amount or payment reference. */
  function ClientRow(newId: string, userId: string, planId: string, start: int, now: int): Membership {
    Membership(newId, userId, planId, Active, start, None, None, None, now)
  }

  /** The outcome of a subscribe or renew click. */
  datatype ClientAction = Navigate(path: string) | Inserted(row: Membership) | InsertFailed(message: string)

  datatype ClientOutcome = ClientOutcome(action: ClientAction, memberships: seq<Membership>)

  /** Insert the row, or report the insert's error and leave the store as it was. */
  function InsertClientRow(
    memberships: seq<Membership>, userId: string, planId: string, latestEnd: Option<int>,
    now: int, insert: WriteReply, newId: string)
    : (r: ClientOutcome)
    ensures insert.WriteFailed? ==> r == ClientOutcome(InsertFailed(insert.message), memberships)
    ensures insert.Written? ==>
              && r.action.Inserted?
              && r.memberships == memberships + [r.action.row]
              && r.action.row.status == Active && r.action.row.planId == planId
              && r.action.row.userId == userId && r.action.row.endDate.None?
              && r.action.row.startDate == ClientStart(latestEnd, now)
  {
    match insert
    case WriteFailed(message) => ClientOutcome(InsertFailed(message), memberships)
    case Written =>
      var row := ClientRow(newId, userId, planId, ClientStart(latestEnd, now), now);
      ClientOutcome(Inserted(row), memberships + [row])
  }

  /** The browser paths never expire the row they extend: every existing
      row is left exactly as it was. */
  lemma ClientPathsKeepExistingRows(
    memberships: seq<Membership>, userId: string, planId: string, latestEnd: Option<int>,
    now: int, insert: WriteReply, newId: string)
    ensures var r := InsertClientRow(memberships, userId, planId, latestEnd, now, insert, newId);
            r.memberships[..|memberships|] == memberships
  {
  }

  /** The browser's start rule and the payment function's agree on any row
      at any instant after the epoch: a row without an end date starts the
      new term now on both paths. */
  lemma BrowserAndServerStartsAgree(existing: Membership, now: int)
    requires now >= 0
    ensures ClientStart(existing.endDate, now) == VerifyPayment.PaidStart(Some(existing), now)
  {
  }
}

=== FILE: create_payment.dfy ===
/** The `create-membership-payment` edge function: validate the plan and
    the user, then ask the payment gateway for an order in paise. */
module CreatePayment {
  import opened Wrappers
  import opened Text
  import opened Records

  /** The public gateway key the function hands to the checkout. */
  const GatewayKeyId: string := "rzp_test_AIaN0EfXmfZgMk"
  const Currency: string := "INR"
  const UserNotFound: string := "User not found"
  const PlanNotFound: string := "Plan not found"
  const GatewayErrorPrefix: string := "Razorpay error: "
  const UnknownError: string := "Unknown error"

  /** The order body posted to the gateway. */
  datatype OrderRequest = OrderRequest(
    amount: int,
    currency: string,
    receipt: string,
    planId: string,
    userId: string,
    planName: string)

  /** The gateway's reply: `response.ok` and the decoded JSON. */
  datatype GatewayReply = GatewayReply(
    ok: bool,
    orderId: string,
    amount: int,
    currency: string,
    errorDescription: Option<string>)

  datatype PaymentOrder = PaymentOrder(
    orderId: string,
    amount: int,
    currency: string,
    keyId: string,
    plan: Plan,
    userName: Option<string>,
    userEmail: Option<string>,
    userPhone: Option<string>)

  /** The HTTP reply: 200 with `success: true`, or 400 with `success: false`. */
  datatype HttpReply = HttpReply(status: int, success: bool, body: Result<PaymentOrder>)

  datatype CreateOutcome = CreateOutcome(reply: HttpReply, sent: Option<OrderRequest>)

  /** The `.eq('id', userId)` condition. */
  function UserIdIs(userId: string): User -> bool {
    (u: User) => u.id == userId
  }

  /** `.from('users').select(...).eq('id', userId).single()`: a user
      exactly when one row carries the id. */
  function UserById(users: seq<User>, userId: string): (r: Option<User>)
    ensures r.Some? <==> |Filter(users, UserIdIs(userId))| == 1
    ensures r.Some? ==> r.value in users && r.value.id == userId
    ensures (forall u :: u in users ==> u.id != userId) ==> r.None?
  {
    ExactlyOne(Filter(users, UserIdIs(userId)))
  }

  /** With ids unique, every user row is found by its own id. */
  lemma UserByIdFindsRow(users: seq<User>, i: int)
    requires 0 <= i < |users|
    requires forall j :: 0 <= j < |users| && j != i ==> users[j].id != users[i].id
    ensures UserById(users, users[i].id) == Some(users[i])
  {
    FilterSingleHit(users, UserIdIs(users[i].id), i);
  }

  /** Rupees to paise. */
  function Paise(priceInr: int): (p: int)
    ensures p % 100 == 0 && p / 100 == priceInr
  {
    priceInr * 100
  }

  /** `membership_${planId}_${userId}_${Date.now()}`. */
  function Receipt(planId: string, userId: string, millis: int): (s: string)
    ensures |s| == 13 + |planId| + |userId| + |IntToString(millis)|
    ensures s[..11] == "membership_"
    ensures s[11..11 + |planId|] == planId && s[11 + |planId|] == '_'
    ensures s[12 + |planId|..12 + |planId| + |userId|] == userId && s[12 + |planId| + |userId|] == '_'
    ensures s[13 + |planId| + |userId|..] == IntToString(millis)
  {
    "membership_" + planId + "_" + userId + "_" + IntToString(millis)
  }

  /** `order.error?.description || 'Unknown error'`. */
  function GatewayError(description: Option<string>): (msg: string)
    ensures |msg| > |GatewayErrorPrefix| && msg[..|GatewayErrorPrefix|] == GatewayErrorPrefix
    ensures description.Some? && description.value != "" ==> msg[|GatewayErrorPrefix|..] == description.value
    ensures description.None? || description.value == "" ==> msg[|GatewayErrorPrefix|..] == UnknownError
  {
    GatewayErrorPrefix + (if description.Some? && description.value != "" then description.value else UnknownError)
  }

  function Respond(r: Result<PaymentOrder>): (h: HttpReply)
    ensures h.success <==> r.Ok?
    ensures h.status == (if r.Ok? then 200 else 400)
    ensures h.body == r
  {
    HttpReply(if r.Ok? then 200 else 400, r.Ok?, r)
  }

  /** The whole request. `now` is `Date.now()`; `gateway` is what the
      gateway replies if an order is posted at all. */
  function CreateMembershipPayment(
    planId: string, userId: string, plans: seq<Plan>, users: seq<User>,
    now: int, gateway: GatewayReply)
    : (r: CreateOutcome)
    // the plan is checked first, then the user; either failure posts nothing
    ensures PlanById(plans, planId).None? ==> r.reply.body == Err(PlanNotFound) && r.sent.None?
    ensures PlanById(plans, planId).Some? && UserById(users, userId).None? ==>
              r.reply.body == Err(UserNotFound) && r.sent.None?
    ensures r.sent.Some? <==> PlanById(plans, planId).Some? && UserById(users, userId).Some?
    // the posted order: price in paise, rupees, a receipt naming plan, user and time
    ensures r.sent.Some? ==>
              var plan := PlanById(plans, planId).value;
              && r.sent.value.amount == Paise(plan.priceInr)
              && r.sent.value.currency == Currency
              && r.sent.value.receipt == Receipt(planId, userId, now)
              && r.sent.value.planName == plan.name
    ensures r.sent.Some? && !gateway.ok ==> r.reply.body == Err(GatewayError(gateway.errorDescription))
    // success echoes the gateway's order and the user's contact details
    ensures r.reply.body.Ok? <==> r.sent.Some? && gateway.ok
    ensures r.reply.body.Ok? ==>
              var user := UserById(users, userId).value;
              var o := r.reply.body.value;
              && o.orderId == gateway.orderId && o.amount == gateway.amount
              && o.currency == gateway.currency && o.keyId == GatewayKeyId
              && o.plan == PlanById(plans, planId).value
              && o.userName == user.fullName && o.userEmail == user.email && o.userPhone == user.phone
    // every failure is a 400 with success false
    ensures r.reply.success <==> r.reply.body.Ok?
    ensures r.reply.status == (if r.reply.success then 200 else 400)
  {
    match PlanById(plans, planId)
    case None => CreateOutcome(Respond(Err(PlanNotFound)), None)
    case Some(plan) =>
      match UserById(users, userId)
      case None => CreateOutcome(Respond(Err(UserNotFound)), None)
      case Some(user) =>
        var order := OrderRequest(Paise(plan.priceInr), Currency, Receipt(planId, userId, now),
                                  planId, userId, plan.name);
        if !gateway.ok then
          CreateOutcome(Respond(Err(GatewayError(gateway.errorDescription))), Some(order))
        else
          CreateOutcome(Respond(Ok(PaymentOrder(gateway.orderId, gateway.amount, gateway.currency,
                                                GatewayKeyId, plan, user.fullName, user.email,
                                                user.phone))), Some(order))
  }

  /** Two receipts for the same plan and user made at different instants
      differ, so the time suffix tells them apart. */
  lemma ReceiptsDistinguishInstants(planId: string, userId: string, t1: nat, t2: nat)
    requires t1 != t2
    ensures Receipt(planId, userId, t1) != Receipt(planId, userId, t2)
  {
    if Receipt(planId, userId, t1) == Receipt(planId, userId, t2) {
      NatToStringInjective(t1, t2);
    }
  }
}

=== FILE: expiry_sweep.dfy ===
/** The `check-membership-expiry` edge function, run on a schedule: remind
    members whose term ends in three days and expire the active rows whose
    term has ended. */
module ExpirySweep {
  import opened Wrappers
  import opened Time
  import opened Records

  /** `now + 3 * 24 * 60 * 60 * 1000`: the end of the reminder window. */
  const ReminderWindowMs: int := 3 * MsPerDay
  /** The one day count on which a reminder goes out. */
  const ReminderDay: int := 3

  datatype NoticeKind = Reminder | ExpiredNotice

  /** One `send-membership-email` invoke: its type, the row it is about and,
      for a reminder, the day count it reports. */
  datatype Notice = Notice(kind: NoticeKind, membershipId: string, daysRemaining: Option<int>)

  datatype SweepReport = SweepReport(expiring: nat, expired: nat)

  datatype SweepOutcome = SweepOutcome(
    response: Result<SweepReport>,
    memberships: seq<Membership>,
    notices: seq<Notice>)

  /** `.eq('status', 'active').gte('end_date', now).lte('end_date', now + 3 days)`;
      a row without an end date matches no comparison. */
  predicate InReminderWindow(m: Membership, now: int) {
    m.status == Active && m.endDate.Some? && now <= m.endDate.value <= now + ReminderWindowMs
  }

  /** `.eq('status', 'active').lt('end_date', now)`. */
  predicate PastDue(m: Membership, now: int) {
    m.status == Active && m.endDate.Some? && m.endDate.value < now
  }

  function ReminderCandidates(rows: seq<Membership>, now: int): (r: seq<Membership>)
    ensures forall m :: m in r <==> m in rows && InReminderWindow(m, now)
  {
    Filter(rows, (m: Membership) => InReminderWindow(m, now))
  }

  function ExpiredCandidates(rows: seq<Membership>, now: int): (r: seq<Membership>)
    ensures forall m :: m in r <==> m in rows && PastDue(m, now)
  {
    Filter(rows, (m: Membership) => PastDue(m, now))
  }

  /** The two candidate sets never share a row. */
  lemma CandidatesDisjoint(rows: seq<Membership>, now: int)
    ensures forall m :: m in ReminderCandidates(rows, now) ==> m !in ExpiredCandidates(rows, now)
  {
  }

  /** Whether the first loop sends `m` a reminder: its ceiling day count
      must be exactly 3. */
  predicate RemindsOn(m: Membership, now: int)
    requires m.endDate.Some?
  {
    DaysRemaining(m.endDate, now) == Some(ReminderDay)
  }

  /** `RemindsOn` as a filter over rows, for stating which rows, in which
      order, the first loop reminds. */
  function ThirdDayRow(now: int): Membership -> bool {
    (m: Membership) => m.endDate.Some? && DaysRemaining(m.endDate, now) == Some(ReminderDay)
  }

  /** The first loop: one reminder per window row whose day count is 3. */
  function ReminderNotices(window: seq<Membership>, now: int): (r: seq<Notice>)
    requires forall m :: m in window ==> m.endDate.Some?
    ensures |r| <= |window|
    // exactly one reminder per qualifying row, in query order
    ensures var hits := Filter(window, ThirdDayRow(now));
            && |r| == |hits|
            && forall k :: 0 <= k < |r| ==> r[k] == Notice(Reminder, hits[k].id, Some(ReminderDay))
    ensures forall n :: n in r ==> n.kind == Reminder && n.daysRemaining == Some(ReminderDay)
    ensures forall n :: n in r ==> exists m :: m in window && m.id == n.membershipId && RemindsOn(m, now)
    ensures forall m :: m in window && RemindsOn(m, now) ==> Notice(Reminder, m.id, Some(ReminderDay)) in r
  {
    if |window| == 0 then []
    else
      var rest := ReminderNotices(window[1..], now);
      var r := if RemindsOn(window[0], now) then [Notice(Reminder, window[0].id, Some(ReminderDay))] + rest else rest;
      ReminderStepInOrder(window, now, rest, r);
      ReminderStepMembers(window, now, rest, r);
      r
  }

  /** The inductive step of the first loop, for the count and order of
      the reminders. */
  lemma ReminderStepInOrder(window: seq<Membership>, now: int, rest: seq<Notice>, r: seq<Notice>)
    requires |window| > 0 && forall m :: m in window ==> m.endDate.Some?
    requires var hits := Filter(window[1..], ThirdDayRow(now));
             && |rest| == |hits|
             && forall k :: 0 <= k < |rest| ==> rest[k] == Notice(Reminder, hits[k].id, Some(ReminderDay))
    requires r == if RemindsOn(window[0], now) then [Notice(Reminder, window[0].id, Some(ReminderDay))] + rest else rest
    ensures |r| <= |window|
    ensures var hits := Filter(window, ThirdDayRow(now));
            && |r| == |hits|
            && forall k :: 0 <= k < |r| ==> r[k] == Notice(Reminder, hits[k].id, Some(ReminderDay))
  {
    HitsOfWindow(window, now);
    if RemindsOn(window[0], now) {
      PrependReminder(window[0], Filter(window[1..], ThirdDayRow(now)), rest);
    }
  }

  /** The inductive step of the first loop, for which rows are reminded. */
  lemma ReminderStepMembers(window: seq<Membership>, now: int, rest: seq<Notice>, r: seq<Notice>)
    requires |window| > 0 && forall m :: m in window ==> m.endDate.Some?
    requires forall n :: n in rest ==> n.kind == Reminder && n.daysRemaining == Some(ReminderDay)
    requires forall n :: n in rest ==> exists m :: m in window[1..] && m.id == n.membershipId && RemindsOn(m, now)
    requires forall m :: m in window[1..] && RemindsOn(m, now) ==> Notice(Reminder, m.id, Some(ReminderDay)) in rest
    requires r == if RemindsOn(window[0], now) then [Notice(Reminder, window[0].id, Some(ReminderDay))] + rest else rest
    ensures forall n :: n in r ==> n.kind == Reminder && n.daysRemaining == Some(ReminderDay)
    ensures forall n :: n in r ==> exists m :: m in window && m.id == n.membershipId && RemindsOn(m, now)
    ensures forall m :: m in window && RemindsOn(m, now) ==> Notice(Reminder, m.id, Some(ReminderDay)) in r
  {
    assert forall m :: m in window[1..] ==> m in window;
    assert forall m :: m in window ==> m == window[0] || m in window[1..];
  }

  /** The qualifying rows of a window are its first row, when it
      qualifies, followed by those of the rest. */
  lemma HitsOfWindow(window: seq<Membership>, now: int)
    requires |window| > 0
    ensures Filter(window, ThirdDayRow(now)) ==
            (if ThirdDayRow(now)(window[0]) then [window[0]] else []) + Filter(window[1..], ThirdDayRow(now))
  {
    assert window == [window[0]] + window[1..];
    FilterConcat([window[0]], window[1..], ThirdDayRow(now));
    FilterSingleton(window[0], ThirdDayRow(now));
  }

  /** A reminder for `x` in front of the reminders for `hits` is the list
      of reminders for `x` followed by `hits`. */
  lemma PrependReminder(x: Membership, hits: seq<Membership>, rest: seq<Notice>)
    requires |rest| == |hits|
    requires forall k :: 0 <= k < |rest| ==> rest[k] == Notice(Reminder, hits[k].id, Some(ReminderDay))
    ensures var r := [Notice(Reminder, x.id, Some(ReminderDay))] + rest;
            var h := [x] + hits;
            && |r| == |h|
            && forall k :: 0 <= k < |r| ==> r[k] == Notice(Reminder, h[k].id, Some(ReminderDay))
  {
  }

  /** The second loop: one expiry email per expired candidate, in order. */
  function ExpiryNotices(expired: seq<Membership>): (r: seq<Notice>)
    ensures |r| == |expired|
    ensures forall k :: 0 <= k < |r| ==> r[k] == Notice(ExpiredNotice, expired[k].id, None)
  {
    seq(|expired|, k requires 0 <= k < |expired| => Notice(ExpiredNotice, expired[k].id, None))
  }

  function IdsOf(rows: seq<Membership>): (ids: set<string>)
    ensures forall m :: m in rows ==> m.id in ids
    ensures forall id :: id in ids ==> exists m :: m in rows && m.id == id
  {
    set m | m in rows :: m.id
  }

  /** The emails of one run: the reminders of the first loop, then one
      expiry email per expired candidate, in candidate order. */
  function SweepNotices(rows: seq<Membership>, now: int): (r: seq<Notice>)
    ensures var rem := ReminderNotices(ReminderCandidates(rows, now), now);
            var exp := ExpiredCandidates(rows, now);
            && |r| == |rem| + |exp|
            && r[..|rem|] == rem
            && r[|rem|..] == ExpiryNotices(exp)
  {
    var window := ReminderCandidates(rows, now);
    assert forall m :: m in window ==> m.endDate.Some?;
    var rem := ReminderNotices(window, now);
    var exp := ExpiryNotices(ExpiredCandidates(rows, now));
    AppendParts(rem, exp);
    rem + exp
  }

  lemma AppendParts(a: seq<Notice>, b: seq<Notice>)
    ensures (a + b)[..|a|] == a && (a + b)[|a|..] == b
  {
  }

  /** The store after the second loop's updates: every row sharing an id
      with an expired candidate is now expired. */
  function SweepStore(rows: seq<Membership>, now: int): (r: seq<Membership>)
    ensures |r| == |rows|
    ensures forall i :: 0 <= i < |rows| && PastDue(rows[i], now) ==> r[i] == rows[i].(status := Expired)
    ensures forall i :: 0 <= i < |rows| ==> r[i] == rows[i] || r[i] == rows[i].(status := Expired)
  {
    var expired := ExpiredCandidates(rows, now);
    assert forall i :: 0 <= i < |rows| && PastDue(rows[i], now) ==> rows[i].id in IdsOf(expired) by {
      forall i | 0 <= i < |rows| && PastDue(rows[i], now) ensures rows[i].id in IdsOf(expired) {
        assert rows[i] in rows;
        assert rows[i] in expired;
      }
    }
    ExpireIds(rows, IdsOf(expired))
  }

  /** One run of the sweep at instant `now`. `expiringError` and
      `expiredError` are the two queries' failures, if any. The status
      updates and the email invokes are awaited but their errors never
      inspected, so they are modelled as taking effect. */
  function Sweep(rows: seq<Membership>, now: int, expiringError: Option<string>, expiredError: Option<string>)
    : (r: SweepOutcome)
    // a failed query aborts before any write or email
    ensures expiringError.Some? || expiredError.Some? ==> r.memberships == rows && r.notices == []
    ensures r.response.Ok? <==> expiringError.None? && expiredError.None?
    // the report counts candidates, not emails sent
    ensures r.response.Ok? ==>
              r.response.value == SweepReport(|ReminderCandidates(rows, now)|, |ExpiredCandidates(rows, now)|)
    ensures r.response.Ok? ==> r.memberships == SweepStore(rows, now) && r.notices == SweepNotices(rows, now)
  {
    if expiringError.Some? then SweepOutcome(Err(expiringError.value), rows, [])
    else if expiredError.Some? then SweepOutcome(Err(expiredError.value), rows, [])
    else
      SweepOutcome(Ok(SweepReport(|ReminderCandidates(rows, now)|, |ExpiredCandidates(rows, now)|)),
                   SweepStore(rows, now), SweepNotices(rows, now))
  }

  /** A window row is reminded exactly when its end lies more than two and
      at most three days ahead: rows with 0, 1 or 2 days left get nothing. */
  lemma RemindedIffThirdDay(m: Membership, now: int)
    requires InReminderWindow(m, now)
    ensures RemindsOn(m, now) <==> now + 2 * MsPerDay < m.endDate.value <= now + 3 * MsPerDay
  {
    DaysEqualIff(m.endDate.value, now, ReminderDay);
  }

  /** A row whose end has not passed keeps its status, provided ids are
      unique (the update is by id). */
  lemma SweepKeepsCurrentRows(rows: seq<Membership>, now: int, i: int)
    requires UniqueIds(rows)
    requires 0 <= i < |rows| && !PastDue(rows[i], now)
    ensures SweepStore(rows, now)[i] == rows[i]
  {
  }

  /** Running the sweep again at the same instant expires nothing new and
      sends no expiry email: the flipped rows no longer match `active`. */
  lemma {:induction false} SweepIdempotent(rows: seq<Membership>, now: int)
    ensures var once := SweepStore(rows, now);
            && ExpiredCandidates(once, now) == []
            && SweepStore(once, now) == once
  {
    var once := SweepStore(rows, now);
    forall m | m in once ensures !PastDue(m, now) {
      var i :| 0 <= i < |once| && once[i] == m;
      if PastDue(rows[i], now) {
        assert once[i] == rows[i].(status := Expired);
      } else {
        assert once[i] == rows[i] || once[i] == rows[i].(status := Expired);
      }
    }
    NothingPastDueAfterSweep(once, now);
  }

  /** With no past-due row left, there is nothing to expire and the
      second loop's updates change nothing. */
  lemma NothingPastDueAfterSweep(rows: seq<Membership>, now: int)
    requires forall m :: m in rows ==> !PastDue(m, now)
    ensures ExpiredCandidates(rows, now) == []
    ensures SweepStore(rows, now) == rows
  {
    var again := ExpiredCandidates(rows, now);
    assert IdsOf(again) == {};
    var r := ExpireIds(rows, {});
    assert forall i :: 0 <= i < |rows| ==> r[i] == rows[i];
  }
}

=== FILE: membership_service.dfy ===
/** The membership service the pages call: the plan catalogue query, the
    current-membership query, the two edge-function invokes and the
    profile update made during a purchase. */
module MembershipService {
  import opened Wrappers
  import opened Records

  predicate SortedBy(s: seq<Plan>, key: Plan -> int) {
    forall i, j :: 0 <= i < j < |s| ==> key(s[i]) <= key(s[j])
  }

  function InsertByKey(x: Plan, s: seq<Plan>, key: Plan -> int): (r: seq<Plan>)
    requires SortedBy(s, key)
    ensures SortedBy(r, key)
    ensures multiset(r) == multiset(s) + multiset{x}
    ensures forall y :: y in r ==> y == x || y in s
  {
    if |s| == 0 then [x]
    else if key(x) <= key(s[0]) then
      InsertFrontSorted(x, s, key);
      [x] + s
    else
      var rest := InsertByKey(x, s[1..], key);
      assert s == [s[0]] + s[1..];
      InsertConsSorted(s[0], rest, x, s[1..], key);
      [s[0]] + rest
  }

  lemma InsertFrontSorted(x: Plan, s: seq<Plan>, key: Plan -> int)
    requires SortedBy(s, key) && |s| > 0 && key(x) <= key(s[0])
    ensures SortedBy([x] + s, key)
  {
    var r := [x] + s;
    forall i, j | 0 <= i < j < |r| ensures key(r[i]) <= key(r[j]) {
      if i == 0 { assert key(s[0]) <= key(s[j - 1]) || j == 1; }
    }
  }

  lemma InsertConsSorted(h: Plan, rest: seq<Plan>, x: Plan, tail: seq<Plan>, key: Plan -> int)
    requires SortedBy(rest, key) && SortedBy([h] + tail, key)
    requires key(h) < key(x)
    requires forall y :: y in rest ==> y == x || y in tail
    ensures SortedBy([h] + rest, key)
  {
    var r := [h] + rest;
    forall i, j | 0 <= i < j < |r| ensures key(r[i]) <= key(r[j]) {
      if i == 0 {
        var y := rest[j - 1];
        assert r[0] == h && r[j] == y;
        assert y in rest;
        if y != x {
          var k :| 0 <= k < |tail| && tail[k] == y;
          var ht := [h] + tail;
          assert ht[0] == h && ht[k + 1] == y;
          assert key(ht[0]) <= key(ht[k + 1]);
        }
      } else {
        assert r[i] == rest[i - 1] && r[j] == rest[j - 1];
      }
    }
  }

  /** `.order(column, { ascending: true })`: the same rows, ascending by
      `key`. Rows with equal keys keep their table order here; the
      database promises no particular order among them. */
  function SortByKey(s: seq<Plan>, key: Plan -> int): (r: seq<Plan>)
    ensures SortedBy(r, key)
    ensures multiset(r) == multiset(s)
  {
    if |s| == 0 then []
    else
      assert s == [s[0]] + s[1..];
      InsertByKey(s[0], SortByKey(s[1..], key), key)
  }

  function PriceKey(p: Plan): int { p.priceInr }

  predicate IsActivePlan(p: Plan) { p.isActive }

  /** `getMembershipPlans`: the active plans, cheapest first; `[]` when the
      query fails. */
  function GetMembershipPlans(fetch: Result<seq<Plan>>): (r: seq<Plan>)
    ensures fetch.Err? ==> r == []
    ensures fetch.Ok? ==> multiset(r) == multiset(Filter(fetch.value, IsActivePlan))
    ensures SortedBy(r, PriceKey)
    ensures forall p :: p in r ==> p.isActive
  {
    match fetch
    case Err(_) => []
    case Ok(rows) =>
      var active := Filter(rows, IsActivePlan);
      var r := SortByKey(active, PriceKey);
      assert forall p :: p in r ==> p in active by {
        forall p | p in r ensures p in active {
          assert p in multiset(r);
        }
      }
      r
  }

  /** `getUserMembership`: the user's active row with its plan embedded.
      `.maybeSingle()` turns zero rows into `null` and several rows into an
      error, which the function also turns into `null`; so a row comes
      back only when the user has exactly one active row, whatever the
      `created_at` ordering. */
  function GetUserMembership(fetch: Result<seq<Membership>>, plans: seq<Plan>, userId: string)
    : (r: Option<MembershipWithPlan>)
    ensures r.Some? <==> fetch.Ok? && |ActiveRowsOf(fetch.value, userId)| == 1
    ensures r.Some? ==> r.value.row in fetch.value && IsActiveOf(r.value.row, userId)
    ensures r.Some? ==> r.value.plan == PlanById(plans, r.value.row.planId)
  {
    match fetch
    case Err(_) => None
    case Ok(rows) =>
      match ExactlyOne(ActiveRowsOf(rows, userId))
      case None => None
      case Some(m) => Some(MembershipWithPlan(m, PlanById(plans, m.planId)))
  }

  /** The details a buyer typed in; `None` is an absent (`undefined`) key. */
  datatype UserDetails = UserDetails(
    fullName: Option<string>,
    phone: Option<string>,
    city: Option<string>,
    email: Option<string>)

  predicate Truthy(v: Option<string>) {
    v.Some? && v.value != ""
  }

  /** An `undefined` value is dropped from the update's JSON body, so the
      column keeps its value; a present value (even `""`) overwrites it. */
  function Overwrite(current: Option<string>, v: Option<string>): Option<string> {
    if v.Some? then v else current
  }

  datatype SaveOutcome = SaveOutcome(returned: bool, users: seq<User>)

  /** `saveUserMembershipDetails`: writes name, phone and city of the user's
      row when at least one of them is truthy, never the email, and returns
      `true` whether or not the update succeeded. */
  function SaveUserMembershipDetails(
    users: seq<User>, userId: string, details: UserDetails, update: WriteReply)
    : (r: SaveOutcome)
    ensures r.returned
    ensures |r.users| == |users|
    ensures forall i :: 0 <= i < |users| ==>
              r.users[i].id == users[i].id && r.users[i].email == users[i].email
    ensures r.users != users ==>
              update.Written? && (Truthy(details.fullName) || Truthy(details.phone) || Truthy(details.city))
    ensures forall i :: 0 <= i < |users| && users[i].id != userId ==> r.users[i] == users[i]
    ensures update.Written? && (Truthy(details.fullName) || Truthy(details.phone) || Truthy(details.city)) ==>
              forall i :: 0 <= i < |users| && users[i].id == userId ==>
                && (details.fullName.Some? ==> r.users[i].fullName == details.fullName)
                && (details.phone.Some? ==> r.users[i].phone == details.phone)
                && (details.city.Some? ==> r.users[i].city == details.city)
                && (details.fullName.None? ==> r.users[i].fullName == users[i].fullName)
                && (details.phone.None? ==> r.users[i].phone == users[i].phone)
                && (details.city.None? ==> r.users[i].city == users[i].city)
  {
    if (Truthy(details.fullName) || Truthy(details.phone) || Truthy(details.city)) && update.Written? then
      var updated := seq(|users|, i requires 0 <= i < |users| =>
        if users[i].id == userId then
          users[i].(fullName := Overwrite(users[i].fullName, details.fullName),
                    phone := Overwrite(users[i].phone, details.phone),
                    city := Overwrite(users[i].city, details.city))
        else users[i]);
      SaveOutcome(true, updated)
    else
      SaveOutcome(true, users)
  }

  /** What `supabase.functions.invoke` hands back. */
  datatype InvokeReply<T> = InvokeReply(data: Option<T>, error: Option<string>)

  /** `createMembershipPayment` / `verifyMembershipPayment`: an invoke that
      reports an error raises it with the error's message; otherwise the
      data is passed through unchanged. */
  function UnwrapInvoke<T>(reply: InvokeReply<T>): (r: Result<Option<T>>)
    ensures r.Err? <==> reply.error.Some?
    ensures r.Err? ==> r.error == reply.error.value
    ensures r.Ok? ==> r.value == reply.data
  {
    match reply.error
    case Some(message) => Err(message)
    case None => Ok(reply.data)
  }
}

=== FILE: membership_status.dfy ===
/** How the client classifies the current membership: the `useMembership`
    hook's state and predicates, and what the current-plan card shows. */
module MembershipStatus {
  import opened Wrappers
  import opened Text
  import opened Time
  import opened Records

  /** The hook's returned state. */
  datatype HookState = HookState(
    membership: Option<MembershipWithPlan>,
    loading: bool,
    daysRemaining: Option<int>)

  /** `!user?.id`: no signed-in user, or an empty id. */
  predicate HasUserId(userId: Option<string>) {
    userId.Some? && userId.value != ""
  }

  function EndOf(m: Option<MembershipWithPlan>): Option<int> {
    if m.Some? then m.value.row.endDate else None
  }

  /** The hook after its fetch has settled. `fetched` is what
      `getUserMembership` returned (it never throws: errors come back as
      `null`). */
  function UseMembership(userId: Option<string>, fetched: Option<MembershipWithPlan>, now: int)
    : (st: HookState)
    ensures !HasUserId(userId) ==> st == HookState(None, false, None)
    ensures !st.loading
    ensures HasUserId(userId) ==> st.membership == fetched
    ensures st.daysRemaining.Some? <==> st.membership.Some? && st.membership.value.row.endDate.Some?
    ensures st.daysRemaining.Some? ==>
              var e := st.membership.value.row.endDate.value;
              (st.daysRemaining.value - 1) * MsPerDay < e - now <= st.daysRemaining.value * MsPerDay
  {
    if !HasUserId(userId) then HookState(None, false, None)
    else HookState(fetched, false, DaysRemaining(EndOf(fetched), now))
  }

  predicate IsActive(st: HookState) {
    && st.membership.Some? && st.membership.value.row.status == Active
    && (st.daysRemaining.None? || st.daysRemaining.value > 0)
  }

  predicate IsExpiringSoon(d: Option<int>) {
    d.Some? && d.value <= 7 && d.value > 0
  }

  predicate IsExpired(d: Option<int>) {
    d.Some? && d.value <= 0
  }

  /** With a day count, exactly one of expired, expiring soon and
      comfortably current holds; without one, neither flag is raised. */
  lemma {:induction false} ClassificationPartition(d: Option<int>)
    ensures !(IsExpiringSoon(d) && IsExpired(d))
    ensures d.None? ==> !IsExpiringSoon(d) && !IsExpired(d)
    ensures d.Some? ==> (IsExpired(d) || IsExpiringSoon(d) || d.value > 7)
  {
  }

  /** An active membership is never expired. */
  lemma ActiveIsNotExpired(st: HookState)
    requires IsActive(st)
    ensures !IsExpired(st.daysRemaining)
  {
  }

  /** The classification read on timestamps: expired means the end is not
      ahead of now; expiring soon means it is at most seven days ahead. */
  lemma ClassificationByTimestamps(e: int, now: int)
    ensures IsExpired(DaysRemaining(Some(e), now)) <==> e <= now
    ensures IsExpiringSoon(DaysRemaining(Some(e), now)) <==> now < e <= now + 7 * MsPerDay
  {
    DaysPositiveIffAhead(e, now);
    DaysAtMostIff(e, now, 7);
  }

  /** The hook's three flags read on the loaded row: active means an active
      row whose end, if any, is still ahead; expired and expiring soon as on
      the card. */
  lemma HookFlagsByTimestamps(userId: Option<string>, fetched: MembershipWithPlan, now: int)
    requires HasUserId(userId)
    ensures var st := UseMembership(userId, Some(fetched), now);
            var end := fetched.row.endDate;
            && (IsActive(st) <==> fetched.row.status == Active && (end.None? || end.value > now))
            && (IsExpired(st.daysRemaining) <==> end.Some? && end.value <= now)
            && (IsExpiringSoon(st.daysRemaining) <==> end.Some? && now < end.value <= now + 7 * MsPerDay)
  {
    if fetched.row.endDate.Some? {
      ClassificationByTimestamps(fetched.row.endDate.value, now);
      DaysPositiveIffAhead(fetched.row.endDate.value, now);
    }
  }

  /** A row the scheduled sweep would expire (end strictly before now) is
      already shown as expired; a row ending exactly now is shown expired
      but not yet swept. */
  lemma SweptRowsShowExpired(e: int, now: int)
    ensures e < now ==> IsExpired(DaysRemaining(Some(e), now))
    ensures e == now ==> IsExpired(DaysRemaining(Some(e), now))
  {
    ClassificationByTimestamps(e, now);
  }

  /** `${N} day${N === 1 ? '' : 's'} remaining`, or 'Expired' when N <= 0. */
  function RemainingText(d: int): (t: string)
    ensures d <= 0 <==> t == "Expired"
    ensures d > 0 ==> |t| > |NatToString(d)| && t[..|NatToString(d)|] == NatToString(d)
    ensures d == 1 ==> t == "1 day remaining"
    ensures d > 1 ==> t[|NatToString(d)|..] == " days remaining"
  {
    if d > 0 then NatToString(d) + " day" + (if d == 1 then "" else "s") + " remaining"
    else "Expired"
  }

  /** The day count can be read back from the text's leading digits, so
      distinct positive counts show distinct texts. */
  lemma RemainingTextReadsBack(d: int)
    requires d > 0
    ensures var t := RemainingText(d);
            var k := |NatToString(d)|;
            AllDigits(t[..k]) && ParseNat(t[..k]) == d && t[k] == ' '
  {
    ParseNatToString(d);
  }

  /** What the current-plan card renders. */
  datatype CardView =
    | Hidden
    | Shown(
        daysRemaining: Option<int>,
        expiringSoon: bool,
        expired: bool,
        remainingText: Option<string>,
        renewButton: Option<string>)

  /** 'Reactivate Plan' once expired, 'Renew Plan' otherwise. */
  function ButtonLabel(expired: bool): (text: string)
    ensures text == "Reactivate Plan" <==> expired
    ensures text == "Renew Plan" <==> !expired
  {
    if expired then "Reactivate Plan" else "Renew Plan"
  }

  /** `CurrentPlanCard`: nothing without a membership; otherwise the day
      count, its classification, the remaining-days line (only when there
      is a count) and the renew button (only with a user id and a plan). */
  function CurrentPlanCard(membership: Option<MembershipWithPlan>, userId: Option<string>, now: int)
    : (v: CardView)
    ensures membership.None? <==> v.Hidden?
    ensures v.Shown? ==> v.daysRemaining == DaysRemaining(membership.value.row.endDate, now)
    ensures v.Shown? ==> v.expired == IsExpired(v.daysRemaining) && v.expiringSoon == IsExpiringSoon(v.daysRemaining)
    ensures v.Shown? ==> !(v.expired && v.expiringSoon)
    ensures v.Shown? ==> (v.remainingText.Some? <==> v.daysRemaining.Some?)
    ensures v.Shown? && v.daysRemaining.Some? ==>
              (v.remainingText == Some("Expired") <==> v.expired)
    ensures v.Shown? ==> (v.renewButton.Some? <==> HasUserId(userId) && membership.value.plan.Some?)
    ensures v.Shown? && v.renewButton.Some? ==>
              (v.renewButton.value == "Reactivate Plan" <==> v.expired)
    ensures v.Shown? && v.daysRemaining.Some? ==> v.remainingText == Some(RemainingText(v.daysRemaining.value))
    ensures v.Shown? && v.renewButton.Some? ==> v.renewButton.value == ButtonLabel(v.expired)
  {
    match membership
    case None => Hidden
    case Some(m) =>
      var d := DaysRemaining(m.row.endDate, now);
      var expired := IsExpired(d);
      Shown(
        d,
        IsExpiringSoon(d),
        expired,
        if d.Some? then Some(RemainingText(d.value)) else None,
        if HasUserId(userId) && m.plan.Some? then Some(ButtonLabel(expired)) else None)
  }
}

=== FILE: pricing_page.dfy ===
/** The pricing page: the plan list it shows, the button on each plan and
    what a click on it does. */
module PricingPage {
  import opened Wrappers
  import opened Text
  import opened Time
  import opened Records
  import opened MembershipService
  import opened ClientRenewal

  /** The plans shown when the catalogue query fails. */
  const FallbackPlans: seq<Plan> := [
    Plan("fallback-30", "Monthly", None, 500, 30, true),
    Plan("fallback-90", "Quarterly", None, 899, 90, true),
    Plan("fallback-365", "Annual", None, 1899, 365, true)
  ]

  function DurationKey(p: Plan): int { p.durationDays }

  datatype PlanListing = PlanListing(plans: seq<Plan>, selected: Option<Plan>)

  /** The plans the page lists (active ones, shortest first) and the one
      preselected; the three fallback plans when the query fails. */
  function ListPlans(fetch: Result<seq<Plan>>): (r: PlanListing)
    ensures fetch.Err? ==> r.plans == FallbackPlans
    ensures fetch.Ok? ==> multiset(r.plans) == multiset(Filter(fetch.value, IsActivePlan))
    ensures SortedBy(r.plans, DurationKey)
    ensures r.selected.None? <==> |r.plans| == 0
    ensures r.selected.Some? ==> r.selected.value == r.plans[0]
  {
    match fetch
    case Err(_) => PlanListing(FallbackPlans, Some(FallbackPlans[0]))
    case Ok(rows) =>
      var list := SortByKey(Filter(rows, IsActivePlan), DurationKey);
      PlanListing(list, if |list| > 0 then Some(list[0]) else None)
  }

  /** The fallback list: 30, 90 and 365 days at 500, 899 and 1899 rupees,
      the monthly plan preselected. */
  lemma FallbackListing(message: string)
    ensures var r := ListPlans(Err(message));
            && |r.plans| == 3
            && r.plans[0].durationDays == 30 && r.plans[0].priceInr == 500
            && r.plans[1].durationDays == 90 && r.plans[1].priceInr == 899
            && r.plans[2].durationDays == 365 && r.plans[2].priceInr == 1899
            && r.selected == Some(r.plans[0])
  {
  }

  /** The plan the member holds, with days still to run. */
  predicate IsCurrentPlan(my: Option<MembershipWithPlan>, plan: Plan, d: Option<int>) {
    && my.Some? && my.value.plan.Some? && my.value.plan.value.id == plan.id
    && d.Some? && d.value > 0
  }

  /** Read on timestamps, `plan` is the current plan exactly when the loaded
      membership embeds it and its end is still ahead of now. */
  lemma CurrentPlanByTimestamps(my: Option<MembershipWithPlan>, plan: Plan, now: int)
    ensures var end := if my.Some? then my.value.row.endDate else None;
            IsCurrentPlan(my, plan, DaysRemaining(end, now)) <==>
              && my.Some? && my.value.plan.Some? && my.value.plan.value.id == plan.id
              && my.value.row.endDate.Some? && my.value.row.endDate.value > now
  {
    if my.Some? && my.value.row.endDate.Some? {
      DaysPositiveIffAhead(my.value.row.endDate.value, now);
    }
  }

  /** The button text on `plan`. */
  function CtaLabel(my: Option<MembershipWithPlan>, plan: Plan, d: Option<int>): (t: string)
    ensures t == "Subscribe" <==> !IsCurrentPlan(my, plan, d)
    ensures t != "Renew"
    ensures IsCurrentPlan(my, plan, d) ==>
              var n := NatToString(d.value);
              && |t| >= |"Renew (starts after "| + |n| + |" day)"|
              && t[..|"Renew (starts after "|] == "Renew (starts after "
              && t[|"Renew (starts after "|..|"Renew (starts after "| + |n|] == n
              && (t[|"Renew (starts after "| + |n|..] == " day)" <==> d.value == 1)
              && (d.value != 1 ==> t[|"Renew (starts after "| + |n|..] == " days)")
  {
    if IsCurrentPlan(my, plan, d) then
      if d.Some? && d.value > 0 then
        "Renew (starts after " + NatToString(d.value) + " day" + (if d.value == 1 then "" else "s") + ")"
      else "Renew"
    else "Subscribe"
  }

  /** A click on a plan's button. Without a signed-in user it goes to the
      sign-in page; otherwise it inserts the row that extends the latest
      membership. */
  function HandleSubscribe(
    signedIn: bool, userId: Option<string>, my: Option<MembershipWithPlan>, plan: Plan,
    memberships: seq<Membership>, now: int, insert: WriteReply, newId: string)
    : (r: ClientOutcome)
    ensures !signedIn || userId.None? || userId.value == "" ==>
              r == ClientOutcome(Navigate("/auth"), memberships)
    ensures r.action == Navigate("/auth") <==> !signedIn || userId.None? || userId.value == ""
    // signed in, the click always reaches the insert, and its reply decides
    ensures signedIn && userId.Some? && userId.value != "" && insert.Written? ==> r.action.Inserted?
    ensures signedIn && userId.Some? && userId.value != "" && insert.WriteFailed? ==>
              r == ClientOutcome(InsertFailed(insert.message), memberships)
    ensures r.action.Inserted? ==>
              && r.memberships == memberships + [r.action.row]
              && r.action.row.status == Active && r.action.row.planId == plan.id
              && r.action.row.userId == userId.value && r.action.row.endDate.None?
              && r.action.row.startDate ==
                   ClientStart(if my.Some? then my.value.row.endDate else None, now)
    ensures r.action.InsertFailed? ==> r.memberships == memberships
  {
    if !signedIn || userId.None? || userId.value == "" then ClientOutcome(Navigate("/auth"), memberships)
    else
      var latestEnd := if my.Some? then my.value.row.endDate else None;
      InsertClientRow(memberships, userId.value, plan.id, latestEnd, now, insert, newId)
  }

  /** A subscription taken while the current term runs starts at its end;
      one taken after it ended (or with no end recorded) starts now. */
  lemma SubscribeStartRule(
    userId: string, my: MembershipWithPlan, plan: Plan,
    memberships: seq<Membership>, now: int, newId: string)
    requires userId != ""
    ensures var r := HandleSubscribe(true, Some(userId), Some(my), plan, memberships, now, Written, newId);
            && r.action.Inserted?
            && (my.row.endDate.Some? && my.row.endDate.value > now ==>
                  r.action.row.startDate == my.row.endDate.value)
            && (my.row.endDate.None? || my.row.endDate.value <= now ==> r.action.row.startDate == now)
  {
  }
}

=== FILE: profile_page.dfy ===
/** The profile page: the tab it opens on, the interest toggle and the
    renew button of the membership tab. */
module ProfilePage {
  import opened Wrappers
  import opened Records
  import opened ClientRenewal

  /** `tab === 'bookings' ? 'bookings' : 'profile'` on the query string. */
  function DefaultTab(tabParam: Option<string>): (tab: string)
    ensures tab == "bookings" <==> tabParam == Some("bookings")
    ensures tab == "profile" <==> tabParam != Some("bookings")
  {
    if tabParam == Some("bookings") then "bookings" else "profile"
  }

  /** `preferences.filter(id => id !== categoryId)`. */
  function Without(prefs: seq<int>, id: int): (r: seq<int>)
    ensures id !in r
    ensures forall x :: x != id ==> (x in r <==> x in prefs)
    ensures id !in prefs ==> r == prefs
    ensures |r| <= |prefs|
    ensures forall x :: multiset(r)[x] == if x == id then 0 else multiset(prefs)[x]
  {
    if |prefs| == 0 then []
    else
      assert prefs == [prefs[0]] + prefs[1..];
      if prefs[0] == id then Without(prefs[1..], id)
      else [prefs[0]] + Without(prefs[1..], id)
  }

  /** Filtering a concatenation filters each part and keeps them in order,
      so the remaining categories keep their relative order. */
  lemma {:induction false} WithoutConcat(a: seq<int>, b: seq<int>, id: int)
    ensures Without(a + b, id) == Without(a, id) + Without(b, id)
    decreases |a|
  {
    if |a| == 0 {
      assert a + b == b;
    } else {
      assert (a + b)[0] == a[0];
      assert (a + b)[1..] == a[1..] + b;
      WithoutConcat(a[1..], b, id);
    }
  }

  /** `handleInterestToggle`: a chosen category is removed (every
      occurrence), an unchosen one is appended at the end. */
  function ToggleInterest(prefs: seq<int>, id: int): (r: seq<int>)
    ensures id in r <==> id !in prefs
    ensures forall x :: x != id ==> (x in r <==> x in prefs)
    ensures id !in prefs ==> r == prefs + [id]
    ensures Without(r, id) == Without(prefs, id)
  {
    if id in prefs then
      Without(prefs, id)
    else
      WithoutAppended(prefs, id);
      prefs + [id]
  }

  /** Filtering out a value just appended to a list without it gives the
      list back. */
  lemma {:induction false} WithoutAppended(prefs: seq<int>, id: int)
    requires id !in prefs
    ensures Without(prefs + [id], id) == prefs
    decreases |prefs|
  {
    if |prefs| == 0 {
      assert prefs + [id] == [id];
    } else {
      assert (prefs + [id])[1..] == prefs[1..] + [id];
      WithoutAppended(prefs[1..], id);
    }
  }

  /** Toggling an unchosen category twice restores the original list. */
  lemma ToggleTwiceRestores(prefs: seq<int>, id: int)
    requires id !in prefs
    ensures ToggleInterest(ToggleInterest(prefs, id), id) == prefs
  {
    WithoutAppended(prefs, id);
  }

  /** Toggling a chosen category twice keeps the other categories in their
      order and moves the chosen one, once, to the end. */
  lemma ToggleTwiceMovesToEnd(prefs: seq<int>, id: int)
    requires id in prefs
    ensures ToggleInterest(ToggleInterest(prefs, id), id) == Without(prefs, id) + [id]
  {
  }

  /** `handleRenew`. Without a plan id on the loaded membership, or without
      a user id, it goes to the pricing page; otherwise it inserts an active
      row for the same plan that starts where the loaded membership ends
      (or now). */
  function HandleRenew(
    userId: Option<string>, membership: Option<MembershipWithPlan>,
    memberships: seq<Membership>, now: int, insert: WriteReply, newId: string)
    : (r: ClientOutcome)
    ensures (membership.None? || membership.value.plan.None? || membership.value.plan.value.id == ""
             || userId.None? || userId.value == "") <==>
            r.action == Navigate("/pricing")
    ensures r.action == Navigate("/pricing") ==> r.memberships == memberships
    // past the guard, the click always reaches the insert, and its reply decides
    ensures r.action != Navigate("/pricing") && insert.Written? ==> r.action.Inserted?
    ensures r.action != Navigate("/pricing") && insert.WriteFailed? ==>
              r == ClientOutcome(InsertFailed(insert.message), memberships)
    ensures r.action.Inserted? ==>
              && r.memberships == memberships + [r.action.row]
              && r.action.row.status == Active
              && r.action.row.planId == membership.value.plan.value.id
              && r.action.row.userId == userId.value
              && r.action.row.endDate.None?
              && r.action.row.startDate == ClientStart(membership.value.row.endDate, now)
    ensures r.action.InsertFailed? ==> r.memberships == memberships
  {
    if membership.None? || membership.value.plan.None? || membership.value.plan.value.id == ""
       || userId.None? || userId.value == "" then
      ClientOutcome(Navigate("/pricing"), memberships)
    else
      InsertClientRow(memberships, userId.value, membership.value.plan.value.id,
                      membership.value.row.endDate, now, insert, newId)
  }
}

=== FILE: records.dfy ===
/** The rows of the membership tables (`membership_plans`,
    `user_memberships`, `users`) and the store operations the edge
    functions and pages perform on them. */
module Records {
  import opened Wrappers

  /** `UserMembership.status`: the only three values the type admits. */
  datatype Status = Pending | Active | Expired

  function StatusName(s: Status): string {
    match s
    case Pending => "pending"
    case Active => "active"
    case Expired => "expired"
  }

  /** The column value read back as a status; any other text is no status. */
  function ParseStatus(t: string): (r: Option<Status>)
    ensures r.Some? ==> StatusName(r.value) == t
  {
    if t == "pending" then Some(Pending)
    else if t == "active" then Some(Active)
    else if t == "expired" then Some(Expired)
    else None
  }

  /** Every status is stored under a name that reads back as itself. */
  lemma StatusRoundTrip(s: Status)
    ensures ParseStatus(StatusName(s)) == Some(s)
  {
  }

  datatype Plan = Plan(
    id: string,
    name: string,
    description: Option<string>,
    priceInr: int,
    durationDays: int,
    isActive: bool)

  /** A `user_memberships` row. The client-side insert paths supply neither
      an end date nor an amount, so both are optional. */
  datatype Membership = Membership(
    id: string,
    userId: string,
    planId: string,
    status: Status,
    startDate: int,
    endDate: Option<int>,
    amountInr: Option<int>,
    paymentId: Option<string>,
    createdAt: int)

  /** A membership row read with its plan embedded (`plan:membership_plans(*)`). */
  datatype MembershipWithPlan = MembershipWithPlan(row: Membership, plan: Option<Plan>)

  datatype User = User(
    id: string,
    fullName: Option<string>,
    email: Option<string>,
    phone: Option<string>,
    city: Option<string>)

  /** The reply of an insert or update: the source only ever inspects
      whether it carried an error. */
  datatype WriteReply = Written | WriteFailed(message: string)

  /** The `.eq('id', planId)` condition. */
  function PlanIdIs(planId: string): Plan -> bool {
    (p: Plan) => p.id == planId
  }

  /** `.from('membership_plans').select('*').eq('id', planId).single()`:
      a plan exactly when one row carries the id. */
  function PlanById(plans: seq<Plan>, planId: string): (r: Option<Plan>)
    ensures r.Some? <==> |Filter(plans, PlanIdIs(planId))| == 1
    ensures r.Some? ==> r.value in plans && r.value.id == planId
    ensures (forall p :: p in plans ==> p.id != planId) ==> r.None?
  {
    ExactlyOne(Filter(plans, PlanIdIs(planId)))
  }

  /** With ids unique, as the primary key makes them, every row is found
      by its own id. */
  lemma PlanByIdFindsRow(plans: seq<Plan>, i: int)
    requires 0 <= i < |plans|
    requires forall j :: 0 <= j < |plans| && j != i ==> plans[j].id != plans[i].id
    ensures PlanById(plans, plans[i].id) == Some(plans[i])
  {
    FilterSingleHit(plans, PlanIdIs(plans[i].id), i);
  }

  predicate IsActiveOf(m: Membership, userId: string) {
    m.userId == userId && m.status == Active
  }

  /** `.eq('user_id', userId).eq('status', 'active')`. */
  function ActiveRowsOf(rows: seq<Membership>, userId: string): (r: seq<Membership>)
    ensures forall m :: m in r <==> m in rows && IsActiveOf(m, userId)
  {
    Filter(rows, (m: Membership) => IsActiveOf(m, userId))
  }

  /** `.update({ status: 'expired' })` on every row whose id is in `ids`;
      each row keeps its position and every other field. */
  function ExpireIds(rows: seq<Membership>, ids: set<string>): (r: seq<Membership>)
    ensures |r| == |rows|
    ensures forall i :: 0 <= i < |rows| ==>
              r[i] == if rows[i].id in ids then rows[i].(status := Expired) else rows[i]
  {
    seq(|rows|, i requires 0 <= i < |rows| =>
      if rows[i].id in ids then rows[i].(status := Expired) else rows[i])
  }

  /** No two rows share an id (the table's primary key). */
  predicate UniqueIds(rows: seq<Membership>) {
    forall i, j :: 0 <= i < j < |rows| ==> rows[i].id != rows[j].id
  }

  predicate FreshId(rows: seq<Membership>, id: string) {
    forall m :: m in rows ==> m.id != id
  }
}

=== FILE: text.dfy ===
/** The string building the source does with template literals: decimal
    rendering of integers and JavaScript's `String.prototype.trim`. */
module Text {

  predicate IsDigit(c: char) {
    '0' <= c <= '9'
  }

  predicate AllDigits(s: string) {
    forall i :: 0 <= i < |s| ==> IsDigit(s[i])
  }

  function DigitChar(d: nat): (c: char)
    requires d < 10
    ensures IsDigit(c)
  {
    "0123456789"[d]
  }

  function DigitValue(c: char): (d: nat)
    requires IsDigit(c)
    ensures d < 10
  {
    (c as int - '0' as int) as nat
  }

  /** Decimal rendering of a natural number, as `${n}` produces it. */
  function NatToString(n: nat): (s: string)
    ensures |s| >= 1
    ensures AllDigits(s)
    decreases n
  {
    if n < 10 then [DigitChar(n)] else NatToString(n / 10) + [DigitChar(n % 10)]
  }

  /** Decimal rendering of an integer, with a leading '-' when negative. */
  function IntToString(i: int): (s: string)
    ensures |s| >= 1
    ensures i >= 0 ==> AllDigits(s)
    ensures i < 0 ==> s[0] == '-' && AllDigits(s[1..])
  {
    if i < 0 then "-" + NatToString(-i) else NatToString(i)
  }

  /** Reads a string of decimal digits back as a number. */
  function ParseNat(s: string): nat
    requires AllDigits(s)
  {
    if |s| == 0 then 0 else ParseNat(s[..|s| - 1]) * 10 + DigitValue(s[|s| - 1])
  }

  /** Rendering a number and reading it back gives the number again, so
      distinct numbers render as distinct strings. */
  lemma {:induction false} ParseNatToString(n: nat)
    ensures ParseNat(NatToString(n)) == n
    decreases n
  {
    var s := NatToString(n);
    if n >= 10 {
      ParseNatToString(n / 10);
      assert s[..|s| - 1] == NatToString(n / 10);
    }
  }

  lemma NatToStringInjective(m: nat, n: nat)
    requires NatToString(m) == NatToString(n)
    ensures m == n
  {
    ParseNatToString(m);
    ParseNatToString(n);
  }

  /** White space and line terminators as ECMAScript's `trim` removes them. */
  predicate IsJsSpace(c: char) {
    || c == '\t' || c == '\n' || c == '\U{000B}' || c == '\U{000C}' || c == '\r'
    || c == ' ' || c == '\U{00A0}' || c == '\U{1680}'
    || ('\U{2000}' <= c <= '\U{200A}')
    || c == '\U{2028}' || c == '\U{2029}' || c == '\U{202F}' || c == '\U{205F}'
    || c == '\U{3000}' || c == '\U{FEFF}'
  }

  predicate AllSpace(s: string) {
    forall i :: 0 <= i < |s| ==> IsJsSpace(s[i])
  }

  /** `s` with its leading white space removed. */
  function TrimStart(s: string): (r: string)
    ensures |r| <= |s|
  {
    if |s| > 0 && IsJsSpace(s[0]) then TrimStart(s[1..]) else s
  }

  /** `s` with its trailing white space removed. */
  function TrimEnd(s: string): (r: string)
    ensures |r| <= |s|
  {
    if |s| > 0 && IsJsSpace(s[|s| - 1]) then TrimEnd(s[..|s| - 1]) else s
  }

  function Trim(s: string): string {
    TrimEnd(TrimStart(s))
  }

  /** `TrimStart` removes exactly the longest white-space prefix. */
  lemma {:induction false} TrimStartIsSuffix(s: string)
    ensures var r := TrimStart(s);
            && r == s[|s| - |r|..]
            && AllSpace(s[..|s| - |r|])
            && (|r| > 0 ==> !IsJsSpace(r[0]))
  {
    if |s| > 0 && IsJsSpace(s[0]) {
      TrimStartIsSuffix(s[1..]);
      var r := TrimStart(s);
      assert s[1..][|s| - 1 - |r|..] == s[|s| - |r|..];
      assert forall k :: 0 < k < |s| - |r| ==> s[k] == s[1..][..|s| - 1 - |r|][k - 1];
    }
  }

  /** `TrimEnd` removes exactly the longest white-space suffix. */
  lemma {:induction false} TrimEndIsPrefix(s: string)
    ensures var r := TrimEnd(s);
            && r == s[..|r|]
            && AllSpace(s[|r|..])
            && (|r| > 0 ==> !IsJsSpace(r[|r| - 1]))
  {
    if |s| > 0 && IsJsSpace(s[|s| - 1]) {
      TrimEndIsPrefix(s[..|s| - 1]);
      var r := TrimEnd(s);
      assert s[..|s| - 1][..|r|] == s[..|r|];
      assert forall k :: |r| <= k < |s| - 1 ==> s[k] == s[..|s| - 1][|r|..][k - |r|];
    }
  }

  /** `s.trim()` is falsy exactly when `s` consists of white space only. */
  lemma TrimEmptyIffBlank(s: string)
    ensures Trim(s) == "" <==> AllSpace(s)
  {
    var a := TrimStart(s);
    TrimStartIsSuffix(s);
    TrimEndIsPrefix(a);
    if !AllSpace(s) {
      var k :| 0 <= k < |s| && !IsJsSpace(s[k]);
      assert k >= |s| - |a|;
      assert a[k - (|s| - |a|)] == s[k];
    }
  }

  /** A string without white space at either end is its own trim. */
  lemma TrimKeepsUnpadded(s: string)
    requires |s| > 0 ==> !IsJsSpace(s[0]) && !IsJsSpace(s[|s| - 1])
    ensures Trim(s) == s
  {
    assert TrimStart(s) == s;
  }

  /** A trimmed string neither starts nor ends with white space. */
  lemma TrimHasNoOuterSpace(s: string)
    ensures var t := Trim(s); |t| > 0 ==> !IsJsSpace(t[0]) && !IsJsSpace(t[|t| - 1])
  {
    var a := TrimStart(s);
    var t := TrimEnd(a);
    TrimStartIsSuffix(s);
    TrimEndIsPrefix(a);
    if |t| > 0 {
      assert t[0] == a[0];
    }
  }
}

=== FILE: tickets.dfy ===
/** Bookings, tickets and events, and the two strings every ticket
    carries: its number and the URL of its QR image. */
module Tickets {
  import opened Wrappers
  import opened Text

  datatype Booking = Booking(
    id: string,
    userId: string,
    eventId: string,
    name: string,
    email: string,
    phone: string,
    tickets: int,
    amount: int,
    status: string,
    bookingDate: int,
    ticketNames: Option<seq<string>>)

  datatype Ticket = Ticket(
    bookingId: string,
    ticketNumber: string,
    username: Option<string>,
    attended: bool)

  /** `HH:MM` as the event row stores it. */
  datatype ClockTime = ClockTime(hours: int, minutes: int)

  /** An event row; `date` is the day number since the epoch of its
      `YYYY-MM-DD` date. */
  datatype Event = Event(
    id: string,
    title: string,
    date: int,
    time: Option<ClockTime>,
    venue: string,
    city: string)

  const TicketPrefix: string := "MJ-"
  const QrPrefix: string := "https://api.qrserver.com/v1/create-qr-code/?size=150x150&data="

  /** The number of loop iterations `for (i = 0; i < tickets; i++)` makes. */
  function SeatCount(tickets: int): (n: nat)
    ensures tickets > 0 ==> n == tickets
    ensures tickets <= 0 ==> n == 0
  {
    if tickets > 0 then tickets else 0
  }

  /** `MJ-${Date.now()}-${Math.floor(Math.random() * 1000)}`, with the clock
      reading and the random draw as parameters. */
  function TicketNumber(millis: nat, draw: nat): (s: string)
    requires draw < 1000
    ensures |s| == 4 + |NatToString(millis)| + |NatToString(draw)|
    ensures s[..3] == TicketPrefix
    ensures s[3..3 + |NatToString(millis)|] == NatToString(millis)
    ensures s[3 + |NatToString(millis)|] == '-'
    ensures s[4 + |NatToString(millis)|..] == NatToString(draw)
  {
    TicketPrefix + NatToString(millis) + "-" + NatToString(draw)
  }

  /** Two ticket numbers are equal only when they were drawn in the same
      millisecond with the same random value: the format itself loses
      nothing, so any collision comes from the draws. */
  lemma TicketNumberInjective(m1: nat, d1: nat, m2: nat, d2: nat)
    requires d1 < 1000 && d2 < 1000
    requires TicketNumber(m1, d1) == TicketNumber(m2, d2)
    ensures m1 == m2 && d1 == d2
  {
    NatToStringInjective(m1, m2);
    NatToStringInjective(d1, d2);
  }

  /** The QR image URL for a ticket number. */
  function QrUrl(ticketNumber: string): (url: string)
    ensures |url| == |QrPrefix| + |ticketNumber|
    ensures QrData(url) == Some(ticketNumber)
  {
    var url := QrPrefix + ticketNumber;
    assert url[..|QrPrefix|] == QrPrefix;
    url
  }

  /** The `data` payload of a QR URL, when the URL has the fixed prefix. */
  function QrData(url: string): (data: Option<string>)
    ensures data.Some? ==> url == QrPrefix + data.value
  {
    if |url| >= |QrPrefix| && url[..|QrPrefix|] == QrPrefix then Some(url[|QrPrefix|..]) else None
  }

  /** Distinct ticket numbers give distinct QR URLs. */
  lemma QrUrlInjective(t1: string, t2: string)
    requires QrUrl(t1) == QrUrl(t2)
    ensures t1 == t2
  {
    assert QrData(QrUrl(t1)) == Some(t1);
  }

  /** `${name} ${i + 1}`: the numbered fallback for seat `i`. */
  function NumberedName(name: string, i: nat): string {
    name + " " + NatToString(i + 1)
  }

  /** The holder name of seat `i` of `seats`: the trimmed explicit name
      when it is not blank; else the numbered fallback when fewer names
      than seats were given (or no list at all); else the booker's name. */
  function HolderName(names: Option<seq<string>>, i: nat, seats: int, name: string): (h: string)
    ensures names.None? ==> h == NumberedName(name, i)
    ensures names.Some? && i < |names.value| && Trim(names.value[i]) != "" ==> h == Trim(names.value[i])
    ensures names.Some? && (i >= |names.value| || Trim(names.value[i]) == "") ==>
              h == if |names.value| < seats then NumberedName(name, i) else name
  {
    match names
    case None => NumberedName(name, i)
    case Some(list) =>
      if i < |list| && Trim(list[i]) != "" then Trim(list[i])
      else if |list| < seats then NumberedName(name, i)
      else name
  }

  /** A trimmed name that is not blank stays non-blank when trimmed again. */
  lemma TrimmedStaysNonBlank(s: string)
    requires Trim(s) != ""
    ensures Trim(Trim(s)) != ""
  {
    var t := Trim(s);
    TrimHasNoOuterSpace(s);
    TrimEmptyIffBlank(t);
    assert !IsJsSpace(t[0]);
  }

  /** A numbered fallback name ends in a digit, so it is never blank. */
  lemma NumberedNameNotBlank(name: string, i: nat)
    ensures Trim(NumberedName(name, i)) != ""
  {
    var h := NumberedName(name, i);
    var n := NatToString(i + 1);
    assert h[|h| - 1] == n[|n| - 1];
    assert IsDigit(h[|h| - 1]);
    TrimEmptyIffBlank(h);
  }

  /** A resolved holder name is never blank unless the booker's own name
      is blank and the list covers every seat. */
  lemma HolderNameNotBlank(names: Option<seq<string>>, i: nat, seats: int, name: string)
    requires Trim(name) != "" || names.None? || |names.value| < seats
    ensures Trim(HolderName(names, i, seats, name)) != ""
  {
    if names.Some? && i < |names.value| && Trim(names.value[i]) != "" {
      TrimmedStaysNonBlank(names.value[i]);
    } else if names.None? || |names.value| < seats {
      NumberedNameNotBlank(name, i);
    }
  }

  /** Three seats, names ["Alice", ""]: the blank second name and the
      missing third both fall back to the numbered booker name. */
  lemma HolderNamesExample(booker: string)
    ensures HolderName(Some(["Alice", ""]), 0, 3, booker) == "Alice"
    ensures HolderName(Some(["Alice", ""]), 1, 3, booker) == booker + " 2"
    ensures HolderName(Some(["Alice", ""]), 2, 3, booker) == booker + " 3"
  {
    ExampleNamedSeat(booker);
    ExampleFallbackSeat(booker, 1);
    ExampleFallbackSeat(booker, 2);
  }

  lemma ExampleNamedSeat(booker: string)
    ensures HolderName(Some(["Alice", ""]), 0, 3, booker) == "Alice"
  {
    var alice := "Alice";
    assert !IsJsSpace(alice[0]) && !IsJsSpace(alice[|alice| - 1]);
    TrimKeepsUnpadded(alice);
  }

  lemma ExampleFallbackSeat(booker: string, i: nat)
    requires i == 1 || i == 2
    ensures HolderName(Some(["Alice", ""]), i, 3, booker) == booker + [' ', DigitChar(i + 1)]
  {
    TrimKeepsUnpadded("");
    NumberedSmall(booker, i);
  }

  lemma NumberedSmall(name: string, i: nat)
    requires i < 9
    ensures NumberedName(name, i) == name + [' ', DigitChar(i + 1)]
  {
    SmallNumberText(i + 1);
    assert NumberedName(name, i) == (name + " ") + [DigitChar(i + 1)];
  }

  lemma SmallNumberText(d: nat)
    requires 1 <= d <= 9
    ensures NatToString(d) == [DigitChar(d)]
  {
  }
}

=== FILE: time.dfy ===
/** Integer millisecond time. Every `Date` of the source is its
    `getTime()` value here; `Date.now()` is always a parameter. */
module Time {
  import opened Wrappers

  const MsPerSecond: int := 1000
  const MsPerMinute: int := 60 * MsPerSecond
  const MsPerHour: int := 60 * MsPerMinute
  /** `1000 * 60 * 60 * 24`, the divisor of every day count in the source. */
  const MsPerDay: int := 24 * MsPerHour

  /** `Math.ceil(a / b)` for an exact quotient: the least integer `q` with
      `a <= q * b`. Dafny's `/` is Euclidean, so negative `a` is handled
      by the remainder test, not by truncation. */
  function CeilDiv(a: int, b: int): (q: int)
    requires b > 0
    ensures (q - 1) * b < a <= q * b
  {
    if a % b == 0 then a / b else a / b + 1
  }

  /** The bounds above pin the quotient down: no other integer meets them. */
  lemma CeilDivUnique(a: int, b: int, q: int)
    requires b > 0
    requires (q - 1) * b < a <= q * b
    ensures q == CeilDiv(a, b)
  {
    var c := CeilDiv(a, b);
    if q < c {
      MulMonotone(q, c - 1, b);
    } else if q > c {
      MulMonotone(c, q - 1, b);
    }
  }

  lemma MulMonotone(x: int, y: int, b: int)
    requires x <= y && b > 0
    ensures x * b <= y * b
  {
    assert y * b - x * b == (y - x) * b;
  }

  /** `Math.ceil((end - now) / 86400000)`, or `null` when the row has no
      end date: the one day-count rule shared by the hook, the plan card,
      the pricing page, the profile page and the expiry sweep. */
  function DaysRemaining(end: Option<int>, now: int): (d: Option<int>)
    ensures d.Some? <==> end.Some?
    ensures d.Some? ==> (d.value - 1) * MsPerDay < end.value - now <= d.value * MsPerDay
  {
    match end
    case None => None
    case Some(e) => Some(CeilDiv(e - now, MsPerDay))
  }

  /** The day count is positive exactly when the end is still ahead. */
  lemma DaysPositiveIffAhead(e: int, now: int)
    ensures DaysRemaining(Some(e), now).value > 0 <==> e > now
  {
    var d := DaysRemaining(Some(e), now).value;
    if d > 0 {
      assert (d - 1) * MsPerDay >= 0;
    } else {
      assert d * MsPerDay <= 0;
    }
  }

  /** The day count is at most `k` (for `k >= 0`) exactly when the end is
      no more than `k` days ahead. */
  lemma DaysAtMostIff(e: int, now: int, k: int)
    requires k >= 0
    ensures DaysRemaining(Some(e), now).value <= k <==> e - now <= k * MsPerDay
  {
    var d := DaysRemaining(Some(e), now).value;
    if d <= k {
      assert d * MsPerDay <= k * MsPerDay;
    } else {
      assert (d - 1) * MsPerDay >= k * MsPerDay;
    }
  }

  /** The day count equals `k` exactly when the end lies in the half-open
      day `((k-1) days, k days]` ahead of now. */
  lemma DaysEqualIff(e: int, now: int, k: int)
    ensures DaysRemaining(Some(e), now).value == k <==>
            (k - 1) * MsPerDay < e - now <= k * MsPerDay
  {
    if (k - 1) * MsPerDay < e - now <= k * MsPerDay {
      CeilDivUnique(e - now, MsPerDay, k);
    }
  }
}

=== FILE: verify_payment.dfy ===
/** The `verify-membership-payment` edge function: after the payment
    gateway's checkout, check the callback's signature, look the plan up,
    insert the new active membership and expire the one it replaces. */
module VerifyPayment {
  import opened Wrappers
  import opened Time
  import opened Records

  datatype VerifyRequest = VerifyRequest(
    paymentId: string,
    orderId: string,
    signature: string,
    planId: string,
    userId: string)

  /** The `membershipDetails` of a successful reply. */
  datatype ActivationDetails = ActivationDetails(
    planName: string,
    startDate: int,
    endDate: int,
    amount: int)

  datatype VerifyOutcome = VerifyOutcome(
    response: Result<ActivationDetails>,
    memberships: seq<Membership>)

  const InvalidSignature: string := "Invalid payment signature"
  const PlanNotFound: string := "Plan not found"
  const InsertFailedPrefix: string := "Failed to create membership: "

  /** The text the gateway signs: `orderId + '|' + paymentId`. */
  function SignedText(orderId: string, paymentId: string): (t: string)
    ensures |t| == |orderId| + 1 + |paymentId|
    ensures t[|orderId|] == '|' && t[..|orderId|] == orderId && t[|orderId| + 1..] == paymentId
  {
    orderId + "|" + paymentId
  }

  /** The hex HMAC-SHA256 digest under the server's secret equals the
      supplied signature exactly. `hmac` stands for the digest function,
      which this model leaves uninterpreted. */
  predicate SignatureValid(hmac: (string, string) -> string, secret: string, req: VerifyRequest) {
    hmac(secret, SignedText(req.orderId, req.paymentId)) == req.signature
  }

  /** The start of a paid term: the current active row's end when that is
      strictly later than now, else now. A row without an end date reads
      as `new Date(null)`, the epoch. */
  function PaidStart(existing: Option<Membership>, now: int): (start: int)
    ensures start >= now
    ensures existing.Some? && existing.value.endDate.GetOr(0) > now ==> start == existing.value.endDate.GetOr(0)
    ensures existing.None? || existing.value.endDate.GetOr(0) <= now ==> start == now
  {
    if existing.Some? && existing.value.endDate.GetOr(0) > now then existing.value.endDate.GetOr(0) else now
  }

  /** `endDate.setDate(endDate.getDate() + duration_days)`, with every day
      taken as 86 400 000 ms. */
  function PaidEnd(start: int, durationDays: int): (end: int)
    ensures end - start == durationDays * MsPerDay
  {
    start + durationDays * MsPerDay
  }

  /** The membership the edge function would find for the user:
      `.eq('user_id').eq('status', 'active').single()`. */
  function CurrentActive(memberships: seq<Membership>, userId: string): (r: Option<Membership>)
    ensures r.Some? <==> |ActiveRowsOf(memberships, userId)| == 1
    ensures r.Some? ==> r.value in memberships && IsActiveOf(r.value, userId)
  {
    ExactlyOne(ActiveRowsOf(memberships, userId))
  }

  /** What the lookup of the active row hands on. Its error is never
      inspected, so a failed read (`lookupFailed`) looks like no row. */
  function ExistingRow(memberships: seq<Membership>, userId: string, lookupFailed: bool): Option<Membership> {
    if lookupFailed then None else CurrentActive(memberships, userId)
  }

  /** The whole request. `now` is `new Date()`, `insert` is the insert's
      reply and `newId` the id the database gives the inserted row;
      `lookupFailed` is the read of the current active row failing. */
  function VerifyMembershipPayment(
    req: VerifyRequest,
    hmac: (string, string) -> string,
    secret: string,
    plans: seq<Plan>,
    memberships: seq<Membership>,
    now: int,
    lookupFailed: bool,
    insert: WriteReply,
    newId: string)
    : (r: VerifyOutcome)
    requires FreshId(memberships, newId)
    // the signature gate comes before any read or write of the store
    ensures !SignatureValid(hmac, secret, req) ==> r == VerifyOutcome(Err(InvalidSignature), memberships)
    ensures SignatureValid(hmac, secret, req) && PlanById(plans, req.planId).None? ==>
              r == VerifyOutcome(Err(PlanNotFound), memberships)
    // a failed insert is reported and nothing is expired
    ensures insert.WriteFailed? ==> r.memberships == memberships
    ensures r.response.Err? ==> r.memberships == memberships
    ensures r.response.Ok? <==>
              SignatureValid(hmac, secret, req) && PlanById(plans, req.planId).Some? && insert.Written?
    // on success exactly one row is added, at the end, and it is the activated term
    ensures r.response.Ok? ==> |r.memberships| == |memberships| + 1
    ensures r.response.Ok? ==>
              var plan := PlanById(plans, req.planId).value;
              var d := r.response.value;
              var row := r.memberships[|memberships|];
              && row.id == newId && row.userId == req.userId && row.planId == req.planId
              && row.status == Active
              && row.startDate == d.startDate && row.endDate == Some(d.endDate)
              && row.amountInr == Some(plan.priceInr) && d.amount == plan.priceInr
              && row.paymentId == Some(req.paymentId)
              && d.planName == plan.name
              && d.startDate == PaidStart(ExistingRow(memberships, req.userId, lookupFailed), now)
              && d.endDate - d.startDate == plan.durationDays * MsPerDay
    // on success the previously active row, and only it, is expired
    ensures r.response.Ok? ==>
              forall i :: 0 <= i < |memberships| ==>
                r.memberships[i] ==
                  if ExistingRow(memberships, req.userId, lookupFailed).Some? &&
                     memberships[i].id == ExistingRow(memberships, req.userId, lookupFailed).value.id
                  then memberships[i].(status := Expired)
                  else memberships[i]
  {
    if !SignatureValid(hmac, secret, req) then
      VerifyOutcome(Err(InvalidSignature), memberships)
    else
      match PlanById(plans, req.planId)
      case None => VerifyOutcome(Err(PlanNotFound), memberships)
      case Some(plan) =>
        var existing := ExistingRow(memberships, req.userId, lookupFailed);
        var start := PaidStart(existing, now);
        var end := PaidEnd(start, plan.durationDays);
        var row := Membership(newId, req.userId, req.planId, Active, start, Some(end),
                              Some(plan.priceInr), Some(req.paymentId), now);
        match insert
        case WriteFailed(message) =>
          VerifyOutcome(Err(InsertFailedPrefix + message), memberships)
        case Written =>
          var stored := memberships + [row];
          var after := if existing.Some? then ExpireIds(stored, {existing.value.id}) else stored;
          VerifyOutcome(Ok(ActivationDetails(plan.name, start, end, plan.priceInr)), after)
  }

  /** The signature error is returned exactly when the signature does not
      match: a failed insert's message can never be mistaken for it. */
  lemma InvalidSignatureIffMismatch(
    req: VerifyRequest, hmac: (string, string) -> string, secret: string,
    plans: seq<Plan>, memberships: seq<Membership>, now: int, lookupFailed: bool,
    insert: WriteReply, newId: string)
    requires FreshId(memberships, newId)
    ensures VerifyMembershipPayment(req, hmac, secret, plans, memberships, now, lookupFailed, insert, newId).response
              == Err(InvalidSignature)
            <==> !SignatureValid(hmac, secret, req)
  {
    var r := VerifyMembershipPayment(req, hmac, secret, plans, memberships, now, lookupFailed, insert, newId);
    if SignatureValid(hmac, secret, req) && PlanById(plans, req.planId).Some? && insert.WriteFailed? {
      assert r.response.error[0] == 'F';
    }
  }

  /** A rejected signature reads nothing: the outcome is the same whatever
      the plan table, the active-row lookup, the insert reply or the clock. */
  lemma MismatchIgnoresStore(
    req: VerifyRequest, hmac: (string, string) -> string, secret: string,
    plans1: seq<Plan>, plans2: seq<Plan>, memberships: seq<Membership>,
    now1: int, now2: int, lookup1: bool, lookup2: bool,
    insert1: WriteReply, insert2: WriteReply, newId1: string, newId2: string)
    requires FreshId(memberships, newId1) && FreshId(memberships, newId2)
    requires !SignatureValid(hmac, secret, req)
    ensures VerifyMembershipPayment(req, hmac, secret, plans1, memberships, now1, lookup1, insert1, newId1)
         == VerifyMembershipPayment(req, hmac, secret, plans2, memberships, now2, lookup2, insert2, newId2)
  {
  }

  /** A renewal bought before the current term ends stacks onto it (no time
      is lost); one bought after it ends starts now. */
  lemma RenewalStacksOntoCurrentTerm(existing: Membership, now: int)
    requires existing.endDate.Some?
    ensures existing.endDate.value > now ==> PaidStart(Some(existing), now) == existing.endDate.value
    ensures existing.endDate.value <= now ==> PaidStart(Some(existing), now) == now
  {
  }

  /** A failed read of the active row is not noticed: the new term starts
      now and no existing row is expired, even when the user holds a term
      that is still running. */
  lemma LookupFailureStartsNow(
    req: VerifyRequest, hmac: (string, string) -> string, secret: string,
    plans: seq<Plan>, memberships: seq<Membership>, now: int, newId: string)
    requires FreshId(memberships, newId)
    requires SignatureValid(hmac, secret, req) && PlanById(plans, req.planId).Some?
    ensures var r := VerifyMembershipPayment(req, hmac, secret, plans, memberships, now, true, Written, newId);
            && r.response.Ok? && r.response.value.startDate == now
            && r.memberships[..|memberships|] == memberships
  {
    var r := VerifyMembershipPayment(req, hmac, secret, plans, memberships, now, true, Written, newId);
    assert forall i :: 0 <= i < |memberships| ==> r.memberships[i] == memberships[i];
  }
}

=== FILE: wrappers.dfy ===
/** Failure-carrying values shared by every module: `Option` for the
    JavaScript `null`/`undefined` a query or a field may yield, `Result`
    for an operation that either succeeds or fails with a message. */
module Wrappers {

  datatype Option<+T> = None | Some(value: T) {

    /** The value, or `default` when there is none (JavaScript's `x ?? d`). */
    function GetOr(default: T): T {
      if Some? then value else default
    }
  }

  datatype Result<+T> = Ok(value: T) | Err(error: string)

  /** Every element of `s` that satisfies `p`, in their original order
      (a `.eq(...)` filter or an `Array.prototype.filter`). */
  function Filter<T(!new)>(s: seq<T>, p: T -> bool): (r: seq<T>)
    ensures |r| <= |s|
    ensures forall x :: x in r <==> x in s && p(x)
    ensures multiset(r) <= multiset(s)
    ensures forall x :: multiset(r)[x] == if p(x) then multiset(s)[x] else 0
  {
    if |s| == 0 then []
    else
      var rest := Filter(s[1..], p);
      assert s == [s[0]] + s[1..];
      if p(s[0]) then [s[0]] + rest else rest
  }

  /** Filtering a concatenation filters each part and keeps them in
      order: the kept elements appear in their original order. */
  lemma {:induction false} FilterConcat<T(!new)>(a: seq<T>, b: seq<T>, p: T -> bool)
    ensures Filter(a + b, p) == Filter(a, p) + Filter(b, p)
    decreases |a|
  {
    if |a| > 0 {
      assert (a + b)[0] == a[0];
      assert (a + b)[1..] == a[1..] + b;
      FilterConcat(a[1..], b, p);
    } else {
      assert a + b == b;
    }
  }

  /** Nothing is kept when no element satisfies `p`. */
  lemma {:induction false} FilterNone<T(!new)>(s: seq<T>, p: T -> bool)
    requires forall j :: 0 <= j < |s| ==> !p(s[j])
    ensures Filter(s, p) == []
    decreases |s|
  {
    if |s| > 0 {
      assert !p(s[0]);
      FilterNone(s[1..], p);
    }
  }

  /** Nothing is kept from a stretch of `s` where no element satisfies `p`. */
  lemma FilterNoneBetween<T(!new)>(s: seq<T>, p: T -> bool, lo: int, hi: int)
    requires 0 <= lo <= hi <= |s|
    requires forall j :: lo <= j < hi ==> !p(s[j])
    ensures Filter(s[lo..hi], p) == []
  {
    var part := s[lo..hi];
    assert forall j :: 0 <= j < |part| ==> part[j] == s[lo + j];
    FilterNone(part, p);
  }

  /** A single element is kept exactly when it satisfies `p`. */
  lemma FilterSingleton<T(!new)>(x: T, p: T -> bool)
    ensures Filter([x], p) == if p(x) then [x] else []
  {
    assert [x][1..] == [];
  }

  /** When exactly one position satisfies `p`, the filter is that element
      alone. */
  lemma FilterSingleHit<T(!new)>(s: seq<T>, p: T -> bool, i: int)
    requires 0 <= i < |s| && p(s[i])
    requires forall j :: 0 <= j < |s| && j != i ==> !p(s[j])
    ensures Filter(s, p) == [s[i]]
  {
    assert s == s[0..i] + ([s[i]] + s[i + 1..|s|]);
    FilterConcat(s[0..i], [s[i]] + s[i + 1..|s|], p);
    FilterConcat([s[i]], s[i + 1..|s|], p);
    FilterNoneBetween(s, p, 0, i);
    FilterNoneBetween(s, p, i + 1, |s|);
    FilterSingleton(s[i], p);
  }

  /** No two elements of `s` share a key. */
  ghost predicate DistinctKeys<T, K>(s: seq<T>, key: T -> K) {
    forall i, j :: 0 <= i < j < |s| ==> key(s[i]) != key(s[j])
  }

  /** Distinct keys in `s` are distinct in its tail, and the head's key
      occurs nowhere in the tail. */
  lemma DistinctKeysTail<T, K>(s: seq<T>, key: T -> K)
    requires |s| > 0 && DistinctKeys(s, key)
    ensures DistinctKeys(s[1..], key)
    ensures forall y :: y in s[1..] ==> key(y) != key(s[0])
  {
    var tail := s[1..];
    forall i, j | 0 <= i < j < |tail| ensures key(tail[i]) != key(tail[j]) {
      assert tail[i] == s[i + 1] && tail[j] == s[j + 1];
    }
    forall y | y in tail ensures key(y) != key(s[0]) {
      var k :| 0 <= k < |tail| && tail[k] == y;
      assert tail[k] == s[k + 1];
    }
  }

  /** An element whose key is new to a list of distinct keys extends it. */
  lemma DistinctKeysCons<T, K>(x: T, rest: seq<T>, key: T -> K)
    requires DistinctKeys(rest, key)
    requires forall y :: y in rest ==> key(y) != key(x)
    ensures DistinctKeys([x] + rest, key)
  {
    var r := [x] + rest;
    forall i, j | 0 <= i < j < |r| ensures key(r[i]) != key(r[j]) {
      assert r[j] == rest[j - 1];
      if i > 0 {
        assert r[i] == rest[i - 1];
      }
    }
  }

  /** A key that tells the elements of `s` apart still tells apart the
      elements the filter keeps. */
  lemma {:induction false} FilterKeepsDistinctKeys<T(!new), K>(s: seq<T>, p: T -> bool, key: T -> K)
    requires DistinctKeys(s, key)
    ensures DistinctKeys(Filter(s, p), key)
    decreases |s|
  {
    if |s| > 0 {
      DistinctKeysTail(s, key);
      FilterKeepsDistinctKeys(s[1..], p, key);
      if p(s[0]) {
        DistinctKeysCons(s[0], Filter(s[1..], p), key);
      }
    }
  }

  /** The outcome of `.single()` / `.maybeSingle()`: a row only when exactly
      one row matched; no row (an error or `null`) for zero or several. */
  function ExactlyOne<T>(rows: seq<T>): (r: Option<T>)
    ensures r.Some? <==> |rows| == 1
    ensures r.Some? ==> r.value in rows
  {
    if |rows| == 1 then Some(rows[0]) else None
  }
}
